=== FILE: README.md ===
# xyplug-stagehand: a Dafny model of the script compiler and step executor

xyplug-stagehand is a job plugin that drives a browser through a script of
steps. Some steps are plain browser operations: navigate, click, fill in a
field, press a key. Others are AI operations: "act" and "extract". While
the steps run, the plugin also records network responses that match
registered capture rules. This project models the core of `index.js` as pure
Dafny functions and proves properties about them:

- **Compiler** (`compiler.dfy`) models `compileScript`. A script can be an
  object, JSON text, or the line-oriented instruction language (`navigate`,
  `capture`, `extract`, `evaluate`, `sleep`, with free text becoming an
  `action`). The result is the ordered step list.
- **Selectors** (`selectors.dfy`) models `locatorFromSelector`, which sorts a
  DevTools selector into a lookup strategy: accessible label, text, XPath or
  CSS. It also models `buildLocatorFromStep`, which takes the first
  candidate of each `selectors` group, in group order.
- **Interpolation** (`interpolation.dfy`) models the `%NAME%` substitution
  used by `change`, `text` and `evaluate`. A variable that is unset or empty
  is an error.
- **Network** (`network.dfy`) models the `response` handler. It finds the
  first capture rule whose URL fragment occurs in the response URL. It then
  records the response either inline or under the name of the downloaded
  file. That name (`DownloadFile`) is the sanitised URL path, with a
  `.subtype` suffix taken from the content type when the path has no
  extension.
- **Executor** (`executor.dfy`) models each step handler in two halves. The
  validating half (`Prepare`) holds the guard checks, the locator and the
  interpolation. The effecting half (`Apply`) appends to the result
  document. One pass of `runStep`, including the log line that can throw,
  is `ExecStep`.
- **Runner** (`runner.dfy`) models `runScript` and the job around it. Steps
  run in order and the first error ends the run. Steps without a handler are
  skipped without counting.
- **Supporting modules**:
  - `values.dfy`: JavaScript values, truthiness and string conversion;
  - `steps.dfy`: steps as field maps, and the fifteen handler kinds;
  - `text.dfy`: character classes, trimming, line splitting;
  - `output.dfy`: the result document;
  - `errors.dfy`: every error a run can end with;
  - `wrappers.dfy`: `Option` and `Result`.

Calls to the browser and to the AI are not modelled. Their result at each
step position (a value, or a thrown error) is a parameter of type `Outcome`.
`JSON.parse` is a parameter too, and the environment is a map.

Three places where the code behaves differently from what its documentation
suggests. The model follows the code in each:

- **Unknown step types do not count.** They are skipped without advancing
  `stepIdx`, so a script containing one never reports progress 1
  (`Runner.ProgressReachesEnd`).
- **A DSL `sleep` line always fails.** `parseInt(RegExp.$1)` reads the
  optional `for ` group, not the digits. The duration is therefore NaN and
  the step throws when it runs (`Compiler.SleepLineDurationLost`,
  `Executor.SleepInstructionFails`).
- **`setViewport` never completes.** Its handler passes a `width` variable
  that is not bound, so it throws a ReferenceError whenever both sizes are
  present (`Executor.SetViewportNeverCompletes`).

## Model

| member | source | states |
|---|---|---|
| Steps.KindOf | index.js:257-262 | A handler found by name has exactly that name. |
| Steps.KindNameRoundTrip | index.js:257-262 | Naming a kind and looking the name up again gives the kind back, for all fifteen handlers. |
| Values.ToTextEmpty | index.js:394-397 | A string converts to itself. Only the empty string and lists convert to "". |
| Text.Trim | index.js:223-225 | `trim()` returns a contiguous slice of the input. Everything before and after the slice is whitespace, and the slice neither starts nor ends with whitespace. |
| Text.TrimUntouched | index.js:225 | A non-empty text with no whitespace at either end is its own trim. |
| Text.Lines | index.js:223 | Splitting on `\n` gives at least one line, no line holds a newline, and joining the lines gives the text back. |
| Text.Contains | index.js:148-149 | `includes` holds exactly when the fragment occurs at some index. |
| Compiler.MakeStep | index.js:227-244 | Each compiled step dispatches to the handler its `type` names and carries the given field. |
| Compiler.NavigateTarget | index.js:227-229 | The URL read from a navigate line is a non-empty token without whitespace. The line is `navigate`, an optional colon and whitespace, then either the URL or `to`, whitespace and the URL. |
| Compiler.NavigateTargetExact | index.js:227 | A line yields a given URL exactly when it matches `^navigate\:?\s+(to\s+)?(\S+)$` with that URL as the last group, with or without the `to` group. |
| Compiler.CaptureTarget | index.js:230-232 | The fragment read from a capture line is a non-empty token without whitespace. The line is `capture`, in any case, then an optional `:`, then whitespace, then the fragment. |
| Compiler.CaptureTargetExact | index.js:230-232 | A line gives a fragment exactly when it has that shape with a non-empty, whitespace-free fragment. |
| Compiler.EvaluateCode | index.js:236-238 | The code read from an evaluate line is non-empty and holds no line terminator. The line is `evaluate`, in any case, then an optional `:`, then whitespace, then the code. |
| Compiler.EvaluateCodeExact | index.js:236-238 | For code that does not start with whitespace and holds no line terminator, a line gives that code exactly when it has the evaluate shape ending in it. |
| Compiler.ClassifyLine | index.js:226-245 | A line becomes a navigate step exactly when the navigate rule matches, and an action exactly when no rule matches. Each kind carries its group: the URL, the fragment, the code, or the whole line as the prompt. A sleep's duration is NaN. |
| Compiler.KeptIsTrimmedWordStart | index.js:225-226 | A raw line is kept exactly when its trimmed form starts with a word character. |
| Compiler.KeptLines | index.js:225 | A line is among the kept lines exactly when it is an input line whose trimmed form starts with a word character. |
| Compiler.KeptLinesOne | index.js:225 | A single line is kept, or dropped, according to the comment-and-blank rule. |
| Compiler.KeptLinesAppend | index.js:223-225 | Filtering concatenated line lists gives the concatenation of the filtered lists, in order. |
| Compiler.CompileLines | index.js:223-245 | Exactly one step per kept line, in order, each the classification of that line. |
| Compiler.CompileLinesAppend | index.js:223-245 | Compiling concatenated line lists gives the concatenation of the step lists. |
| Compiler.Compile | index.js:205-246 | Object scripts never fail. Text that is not JSON-shaped after trimming is compiled as instructions. The only errors are a JSON syntax error and an unreadable script. |
| Compiler.ObjectScriptVerbatim | index.js:210-213 | An object script yields its own `steps`, or none when `steps` is missing. |
| Compiler.EmptyBracesGiveNoSteps | index.js:216-226 | `{}` is too short for the JSON shape. Read as instructions, it yields no step. |
| Compiler.JsonShapeGoesToParser | index.js:216-220 | JSON-shaped text is compiled only through the parser, whatever instructions it spells. |
| Compiler.NavigateLine | index.js:227-229 | `navigate <url>` yields a navigate step to that URL. |
| Compiler.NavigateToLine | index.js:227-229 | `navigate to <url>` drops the optional `to`. |
| Compiler.NavigateToTarget | index.js:227 | The URL read from `navigate to <url>` is the token after `to`. |
| Compiler.TwoTokensNoNavigate | index.js:227-229 | A navigate line with two tokens after the keyword, the first not `to`, gives no URL. |
| Compiler.ExtraTokenIsAction | index.js:227-244 | Such a line falls through every rule and becomes an action whose prompt is the line. |
| Compiler.ClassifyLineRules | index.js:227-241 | The rules are tried in source order. A line is a capture exactly when navigate fails and capture matches. It is an extraction exactly when both fail and the extract prefix matches, and so on for evaluate and sleep. |
| Compiler.CaptureLine | index.js:230-232 | `capture <fragment>` yields a capture step for that fragment. |
| Compiler.ExtractLine | index.js:233-235 | `extract <anything>` yields an extraction whose prompt is the whole line. |
| Compiler.EvaluateLine | index.js:236-238 | `evaluate <code>` yields an evaluate step running that code. |
| Compiler.SleepLineDurationLost | index.js:239-241 | `sleep <digits>` compiles to a sleep step with duration NaN, not the digits. |
| Selectors.SlashRun | index.js:509-510 | Counts exactly the leading slashes. |
| Selectors.ReplaceDeep | index.js:520-523 | Rewriting `>>>` to `>>` never lengthens the selector. |
| Selectors.ReplaceDeepShrinks | index.js:520-523 | The rewrite shortens a selector exactly when it holds `>>>`, and otherwise leaves it unchanged. |
| Selectors.ReplaceDeepFirst | index.js:520-523 | When no `>>>` starts before the first one, that one becomes `>>` and the rewrite continues after it. |
| Selectors.Classify | index.js:482-527 | Non-strings and "" give nothing. A label is never empty, never `*` and has no surrounding whitespace. A text target is never empty and never `*`. Every XPath starts with `//` or `(//`. Nothing is returned only for an `aria/` or `text/` selector. |
| Selectors.ClassifyAria | index.js:493-497 | `aria/x` selects the trimmed label, or nothing when that is empty or `*`. |
| Selectors.ClassifyText | index.js:500-505 | `text/x` selects the untrimmed text, or nothing when it is empty or `*`. |
| Selectors.ClassifyPlain | index.js:520-526 | Any non-empty selector without one of the six recognised prefixes is CSS, with its deep combinators rewritten. Without `>>>` it is used as written. |
| Selectors.ClassifyXPathLiteral | index.js:514-516 | A selector starting with `//` or `(//` is an XPath expression, used unchanged. |
| Selectors.AriaLabelKept | index.js:493-497 | A label with no surrounding whitespace is used as written. |
| Selectors.AriaWildcardExample | index.js:495 | `aria/*` selects nothing. |
| Selectors.TextWildcardExample | index.js:502 | `text/*` selects nothing. |
| Selectors.XPathExample | index.js:508-512 | The recorder's `xpath///e` becomes `//e`. |
| Selectors.DeepCombinatorRewritten | index.js:520-526 | In a CSS selector, the first `>>>` becomes `>>`, whatever comes before it, and the rest is rewritten in turn. |
| Selectors.PierceStripped | index.js:488-490 | One leading `pierce/` does not change the classification. |
| Selectors.PierceAlone | index.js:488-490 | A bare `pierce/` leaves the empty CSS selector. |
| Selectors.XPathNormalised | index.js:508-512 | `xpath` followed by any number of slashes collapses to one `//` root. |
| Selectors.Leads | index.js:540-547 | One lookup per group, in group order, taken from the group's first candidate. |
| Selectors.Present | index.js:540-551 | The kept lookups are empty exactly when no group gives one. Otherwise they start with the first group that does, and contain only lookups that were given. |
| Selectors.PresentAppend | index.js:540-547 | Keeping the given lookups distributes over concatenation, preserving order. |
| Selectors.AlternativesAppend | index.js:540-557 | The alternatives of concatenated groups are the concatenated alternatives. |
| Selectors.FirstCandidateOnly | index.js:541-545 | Candidates after the first in a group never affect the locator. |
| Selectors.BuildTarget | index.js:533-561 | Fails with the no-selectors error when `selectors` is not a list. Fails with the no-locator error exactly when no group gives a lookup. Otherwise returns the non-empty, ordered alternatives. |
| Interpolation.PlaceholderLen | index.js:397 | A match of `%\w+%` at the start spans a non-empty word name between two `%`. |
| Interpolation.ShiftPlaceholder | index.js:397 | A placeholder in a suffix is a placeholder of the whole text, with the same name. |
| Interpolation.Interpolate | index.js:397-400 | The only error is a missing variable, whose name is a word that is unset or empty in the environment. |
| Interpolation.ErrorNamesPlaceholder | index.js:397-400 | The missing variable is the name of a placeholder in the text. |
| Interpolation.NoPlaceholderUnchanged | index.js:397-400 | Text without a placeholder comes back unchanged. |
| Interpolation.AllUsableSucceeds | index.js:397-400 | When every placeholder names a set, non-empty variable, substitution succeeds. |
| Interpolation.LeadingPlaceholder | index.js:397 | `%name%` at the start is a match of exactly those characters. |
| Interpolation.LeadingLiteral | index.js:397 | A character that opens no placeholder is copied and the scan moves on. This includes a `%` with no name and closing `%` after it, as in `%%TOKEN%`. |
| Interpolation.LeadingSubstitution | index.js:397-400 | A leading placeholder becomes its value and the scan resumes after it. An unusable name is the error. |
| Interpolation.SubstituteOne | index.js:397-400 | After placeholder-free text, a placeholder becomes its value and the rest is scanned, never the inserted value. |
| Interpolation.PrefixedTwice | index.js:397-400 | Two prefixes applied to a result equal their concatenation applied once. |
| Interpolation.TokenExample | index.js:429-432 | `%TOKEN%` becomes TOKEN's value when it is set. When TOKEN is unset, the error names TOKEN. |
| Network.FindRule | index.js:147-150 | Returns the first rule whose fragment occurs in the URL, or none exactly when no rule's fragment does. |
| Network.FindRuleStable | index.js:147-150 | Registering another rule never changes the rule chosen for an already matched URL. |
| Network.StripOriginOfUrl | index.js:175 | `scheme://host/path` loses exactly its origin. |
| Network.SanitizeRun | index.js:175 | Kept characters are copied, and each maximal run of other characters becomes exactly one `_`. |
| Network.UnsafeRun | index.js:175 | Measures the maximal leading run of characters outside `[\w.-]`. |
| Network.Sanitize | index.js:175 | The result contains only `[\w.-]`, is no longer than the input, and is unchanged when the input is already clean. |
| Network.SanitizeFixedPoint | index.js:175 | Sanitising leaves a text unchanged exactly when it is already clean. |
| Network.LowerKeepsSafe | index.js:175 | Lower-casing keeps the character class. |
| Network.Stem | index.js:175 | The derived stem is lower case, contains only `[\w.-]`, and contains no `/`. |
| Network.StemOfPath | index.js:175 | A URL whose path is already clean gives that path, lower-cased. |
| Network.StemOfPathSlash | index.js:175 | One trailing slash after such a path is dropped first. |
| Network.StemJoinsSegments | index.js:175 | Two clean path segments `p/q` give the stem `p_q`, lower-cased. |
| Network.Subtype | index.js:177 | The subtype read from a content type is a non-empty word. |
| Network.SubtypeExact | index.js:177 | A content type yields a given subtype exactly when it reads as a word, `/`, that subtype, and then a non-word character or the end. |
| Network.SubtypeNone | index.js:177-178 | No subtype is found exactly when the content type has no such shape. |
| Network.SubtypeOf | index.js:177-178 | `type/subtype` followed by a non-word character, or by nothing, gives exactly the subtype. |
| Network.DropSlashes | index.js:188 | Trailing slashes are removed from a prefix of the path. |
| Network.BasenameInDownloads | index.js:188 | The base name of `downloads/<name>` is the name itself, or the directory when the name is empty. |
| Network.Extension | index.js:177-179 | The suffix is empty when the file has an extension, and otherwise `.subtype` when the content type gives one. |
| Network.DownloadFile | index.js:175-179 | The written name is a bare name of `[\w.-]`. It is the stem when the path has an extension or the content type gives no subtype, and the stem plus `.subtype` otherwise. |
| Network.DownloadName | index.js:187-188 | The recorded file name is the written name. It is the directory name `downloads` only when the written name is empty. Without a subtype in the content type, it is the base name of `downloads/` plus the stem. |
| Network.SavedName | index.js:188 | `basename` of a download path is the bare name. |
| Network.ExtensionNeedsStem | index.js:177 | An extension can only come from a non-empty stem. |
| Network.Route | index.js:140-196 | An unmatched response changes nothing. A matched one creates the list and keeps the earlier records. It appends one record, unless the rule is a download rule whose file write throws. The write throws when the disk refuses it, when the payload is a number or a boolean, or when the written name is "", `.` or `..`, which name a directory. The record holds the URL, the status and the headers. It holds the written name exactly when the rule is a download rule, and the body otherwise. |
| Output.Push | index.js:340-345 | `if (!list) list = []; list.push(x)`: the list exists, keeps its records and ends in `x`. |
| Executor.Prepare | index.js:294-476 | A step that passes validation is planned for its own kind, and never for `setViewport`. |
| Executor.PrepareFailsOnUnmet | index.js:294-465 | Whenever a handler's `if (!step.<field>)` guard fires, validation fails with that guard's own error (`GuardError`). |
| Executor.PrepareSucceedsWhenMet | index.js:294-476 | Validation succeeds exactly when the handler's checks pass. Targeted steps need a buildable locator, and `change` also needs a substitutable value. Navigate needs a URL string matching `^\w+://\S+$`, capture a non-empty string, and text and evaluate a truthy value that substitutes. `setViewport` never validates, and the other kinds need only their guard field. |
| Executor.PrepareRaises | index.js:294-476 | Validation fails only with an error the step's kind can raise. |
| Executor.PrepareLocatorError | index.js:356-476 | A targeted step whose locator cannot be built fails with the locator's own error. |
| Executor.PrepareEnvMissing | index.js:390-457 | A missing-variable error names a variable that is unset or empty. |
| Executor.Guarded | index.js:294-465 | A firing guard fails with that guard's own error: `NoPrompt`, `NoKey`, `NoDuration` or `NoSize`, and for navigate and capture the invalid URL itself. Every capture failure is `InvalidMatch` of the step's URL. Navigate succeeds exactly when the URL is a string matching `^\w+://\S+$`, and otherwise fails with that URL. Reload always succeeds. Capture succeeds exactly when the URL is a non-empty string, and registers a rule with the step's `download` and `pretty` truthiness. Action, extract, key and sleep steps succeed exactly when their guard field is set, and carry that field. |
| Executor.Locating | index.js:356-403 | Targeted handlers build the locator first and pass its error on. With a built locator, every kind except `change` succeeds with it. `change` succeeds exactly when its value substitutes, fills the substituted text, and otherwise fails with the substitution's error. |
| Executor.Substituting | index.js:421-457 | `text` and `evaluate` fail on their guard with `NoText` and `NoScript` respectively. Otherwise they succeed exactly when substituting into the field's string form succeeds. They type, or run, the substituted text, and fail with the substitution's own error. An evaluation keeps the original script as its recorded key. |
| Executor.SubstitutingLiteral | index.js:421-457 | A placeholder-free field is typed, or run, exactly as its string form. |
| Executor.SubstitutingMissing | index.js:421-457 | The first placeholder naming an unset or empty variable stops the step with the error naming it. |
| Executor.Apply | index.js:310-465 | Capture and sleep always succeed. A thrown call fails with the kind's page error. A call that returns completes every other handler. An action succeeds exactly when its success is truthy, and otherwise fails with the action error. An extraction succeeds exactly when its result is truthy, and otherwise fails with the extraction error naming the prompt. Only extractions and evaluations append, each exactly one record. Only capture adds a rule. |
| Executor.ExecStep | index.js:255-292 | A step is skipped exactly when it has no handler. A targeted step whose `selectors` is not a list fails in its log line. Errors belong to the step's kind. A completed step counts once, never touches captures, and only appends. Otherwise, a validation error ends the step with that error. A validated step whose call throws ends with the call's error. A validated step whose call returns completes with the call's state, counted once. |
| Executor.PrepareTargets | index.js:533-561 | A validated targeted step carries every first-choice lookup, in order, and at least one. |
| Executor.ChangeFillsLiteral | index.js:390-403 | `change` with a placeholder-free value fails only when its locator cannot be built, with that error. Otherwise it types the value verbatim, and a missing value fills "". |
| Executor.ValidationPrecedesEffects | index.js:255-476 | A step that fails validation fails the same way whatever the browser would have done. Unless its log line throws, it fails with validation's own error. |
| Executor.SetViewportNeverCompletes | index.js:348-354 | `setViewport` always throws: with no size, or with the unbound `width`. |
| Executor.SleepInstructionFails | index.js:239-241 | A compiled `sleep <digits>` line throws the missing-duration error when run. |
| Executor.SleepAlwaysCompletes | index.js:459-465 | A sleep with a duration completes whatever happens, changing only the count. |
| Executor.Deliver | index.js:140-196 | Routing a response touches only the captures. |
| Executor.ResponseCommutes | index.js:140-196 | Around any step except `capture`, routing a response before or after the step gives the same result. |
| Executor.ApplyCommutes | index.js:140-196 | The effect of every handler except capture commutes with routing a response. |
| Executor.ProceedCommutes | index.js:284-287 | Validating, applying and counting a step commutes with routing a response. |
| Executor.CaptureArmsRouting | index.js:310-317 | A completed capture appends its rule. Earlier matches keep their rule. A URL first matched by the new fragment is routed by the new rule. |
| Runner.CountKnown | index.js:257-262 | The number of steps with a handler is at most the number of steps. |
| Runner.Loop | index.js:248-253 | Each completed step reports the next `stepIdx`. Reports never exceed the steps with a handler, and a run without error reports exactly those. Captures are untouched, other lists only grow, and rules only accumulate. |
| Runner.ExecLawful | index.js:255-292 | `runStep` skips exactly the unknown steps, and each completed step grows the state. |
| Runner.Run | index.js:248-253 | The same facts as `Loop`, for `runStep` with the given outcomes. |
| Runner.RunJob | index.js:198-201 | A compile error, or an empty step list, stops the job before any step. Otherwise every progress report lies between 1 and the number of steps. With no response arriving during the run, the captures list is never created. |
| Runner.LoopAborts | index.js:250-252 | A step that throws ends the run with its own error and the state it found, and reports no further progress. |
| Runner.LoopSkips | index.js:250-262 | A step without a handler hands the same state to the steps after it. |
| Runner.LoopAdvances | index.js:250-252 | A completed step reports its count and hands its state to the steps after it. |
| Runner.RunAborts | index.js:250-252 | `runScript` stops at a throwing step with that step's error and the output as it stood. |
| Runner.LoopAppend | index.js:250-252 | Running `a + b` is running `a`, then `b` from where `a` stopped unless `a` failed. |
| Runner.LoopSkipsUnknown | index.js:257-262 | Steps without a handler neither fail nor count. |
| Runner.UnknownStepsIgnored | index.js:257-262 | The same, for `runScript` itself. |
| Runner.ProgressReachesEnd | index.js:286-288 | The last report equals the number of steps exactly when the run completed and every step had a handler. |

## Left out

- **Browser, page, AI and keyboard calls.** Everything `page`, `stagehand` and the locators do is an `Outcome` parameter:
  - a value for a call that returned;
  - `Failed` for a call that threw (timeouts, navigation errors).

  For an action, the value is the result's `success` field.
- **Locator semantics.** `.or()`, `.first()`, click offsets, timeouts and `waitUntil` have no observable effect in the model. Only the ordered list of alternatives is modelled.
- **`JSON.parse`** is an oracle parameter of `Compile`. A parsed object whose `steps` is not a list, or a `null` script, is reported as an unreadable script. The plugin itself behaves in four different ways here:
  - a missing or `null` `steps` throws a TypeError at `this.steps.length` (index.js:199);
  - a number, a boolean, `""` or an object without a `length` gives no positive length, so the job stops with "No steps found" (index.js:199);
  - a non-empty string is iterated character by character, and each character is skipped as a step without a handler;
  - a `null` script itself throws a TypeError when `.steps` is read (index.js:211).

  A script passed as an object is modelled as `ObjectScript` with an optional list of steps, so only a list or nothing can be written there. The plugin takes any truthy `steps` as it is (`params.script.steps || []`, index.js:211):
  - a non-empty string passes the length check and is iterated character by character, so no handler runs and the job reports success;
  - a number, a boolean or an object without a `length` stops the job with "No steps found" (index.js:199).

  A step is always an object in the model. A `null` element of a steps list throws a TypeError when `step.type` is read (index.js:257), and that ends the run.
- **Reading response bodies.** The JSON-or-text choice by content type is not modelled. The body as read is part of the event, and null when reading failed.
- **File writing.** The file contents are not modelled. The payload serialisation (pretty or compact JSON plus a newline) is left out as well. The model keeps only whether the write throws:
  - whether the file system accepts the write is the event's `diskAccepts` field;
  - a number or boolean payload is refused;
  - a written name of "", `.` or `..` names a directory.

  A throwing write ends the handler after the list has been created and before the record is pushed (`Network.Route`).
- Network.Route: a throwing write rejects the promise of the async `response` listener (index.js:140, 187). No `try`/`catch` surrounds the write, and `app.run().catch` (index.js:622) does not see a listener's rejection, so it is unhandled. Whether Node then ends the process depends on its unhandled-rejection setting, which is outside index.js. The model assumes the run goes on (`Executor.Deliver`, `Executor.ResponseCommutes`).
- **Concurrency.** Response events interleave with steps. This is stated through `Executor.ResponseCommutes` rather than modelled as a scheduler.
- **Parameters around the job.** Parameter normalisation (`parseInt` of sizes and delays), the `stepDelay` sleep, the `job.xy` flag, video recording, archiving, `finish`, and the text of the log lines are not modelled.
- **The log line.** Only its one observable effect is modelled: the throwing `selectors.join`.
- **Progress.** The progress fraction `stepIdx / steps.length` is represented by the pair (report, number of steps), with no floating-point division.
- **Numbers.** Only integers and NaN are modelled. Non-integer numbers are outside the model, and so are numbers of 1e21 or more. JavaScript prints those in exponent form (`1e+21`), while `Values.ToText` prints every integer in decimal. A fractional value typed by `change` or `text` (`0.5` types "0.5") cannot be expressed.
- **The environment** is a map from names to strings. Where `process.env` comes from is not part of this model.
  - Properties that `process.env` inherits from `Object.prototype` are not modelled. With those, `%toString%` would substitute a function's text instead of failing.
- **Action results.** An action fails on a null result as well as on a falsy `success`. Building that error message from a null result throws a different TypeError, which is also not modelled; either way the step ends the run.
- Runner.Run: the append property is stated for `Runner.Loop` (`Runner.LoopAppend`), which `Run` instantiates, rather than repeated for `Run`.
- Executor.Prepare: the contract covers only the shape of a successful plan. `Executor.PrepareSucceedsWhenMet` states exactly which steps validate. The exact errors are stated for each source of failure. `PrepareFailsOnUnmet` gives each guard's own error, `PrepareLocatorError` the locator's error, and `Locating`/`Substituting` the substitution's error. `PrepareRaises` and `PrepareEnvMissing` bound any error by the kind.

=== FILE: compiler.dfy ===
/**
 * The script compiler: a script given as an object, as JSON text, or as the
 * line-oriented instruction language becomes the ordered list of steps.
 * JSON parsing itself is an oracle passed in by the caller.
 */
module Compiler {
  import opened Wrappers
  import opened Text
  import opened Values
  import opened Steps
  import opened Errors

  /** The `script` parameter: an object (with or without a usable `steps`), text, or anything else. */
  datatype Script =
    | ObjectScript(steps: Option<seq<Step>>)
    | TextScript(text: string)
    | OtherScript

  /** What `JSON.parse(text).steps` yields: a syntax error, or the steps if it names a list. */
  datatype JsonParse = Malformed | Parsed(steps: Option<seq<Step>>)

  /** A step of kind `k` with one further field. */
  function MakeStep(k: Kind, name: string, value: Value): (r: Step)
    requires name != "type"
    ensures KindOfStep(r) == Some(k) && Field(r, "type") == Str(KindName(k))
    ensures Field(r, name) == value
  {
    KindNameRoundTrip(k);
    Step(map["type" := Str(KindName(k)), name := value])
  }

  function NavigateStep(url: string): Step {
    MakeStep(Navigate, "url", Str(url))
  }

  function CaptureStep(url: string): Step {
    MakeStep(Capture, "url", Str(url))
  }

  function PromptStep(k: Kind, prompt: string): Step {
    MakeStep(k, "prompt", Str(prompt))
  }

  function EvaluateStep(code: string): Step {
    MakeStep(Evaluate, "script", Str(code))
  }

  /** `parseInt(RegExp.$1)` reads the optional `for ` group, never the digits, so it is NaN. */
  function SleepStep(): Step {
    MakeStep(Sleep, "duration", NaN)
  }

  /** The text after a case-insensitive keyword and its optional colon. */
  function AfterKeyword(line: string, keyword: string): Option<string> {
    if StartsWithCI(line, keyword) then
      var r := line[|keyword|..];
      Some(if |r| > 0 && r[0] == ':' then r[1..] else r)
    else None
  }

  /** `(\S+)$`: a non-empty text without whitespace. */
  function Token(r: string): (t: Option<string>)
    ensures t.Some? ==> t.value == r && r != "" && AllNonSpace(r)
  {
    if r != "" && AllNonSpace(r) then Some(r) else None
  }

  /** `/^navigate\:?\s+(to\s+)?(\S+)$/i`, giving the URL group. */
  function NavigateTarget(line: string): (u: Option<string>)
    ensures u.Some? ==> u.value != "" && AllNonSpace(u.value)
    ensures u.Some? ==> NavigateShape(line, u.value)
  {
    match AfterKeyword(line, "navigate")
    case None => None
    case Some(after) =>
      var k := SpaceRun(after);
      if k == 0 then None
      else
        var r := after[k..];
        AfterKeywordSplit(line, "navigate", after, k);
        if StartsWithCI(r, "to") then
          var k2 := SpaceRun(r[2..]);
          var t := Token(r[2 + k2..]);
          if k2 >= 1 && t.Some? then
            NavigateToShape(line, r, k2);
            t
          else Token(r)
        else Token(r)
  }

  /** `r` is `word` in any case, one or more whitespace characters, then `tail`: `/^word\s+(tail)$/i`. */
  predicate SpacedThen(r: string, word: string, tail: string) {
    && StartsWithCI(r, word)
    && |word| + |tail| < |r|
    && r[|r| - |tail|..] == tail
    && forall i :: |word| <= i < |r| - |tail| ==> IsSpace(r[i])
  }

  /**
   * The navigate rule matches with URL group `url`: a whitespace-free URL
   * ends the keyword shape, either right after the whitespace or after `to`
   * and more whitespace.
   */
  predicate NavigateShape(line: string, url: string) {
    && url != "" && AllNonSpace(url)
    && (|| KeywordThen(line, "navigate", url)
        || exists j :: 0 <= j <= |line| && KeywordThen(line, "navigate", line[j..]) && SpacedThen(line[j..], "to", url))
  }

  lemma NavigateToShape(line: string, r: string, k2: nat)
    requires KeywordThen(line, "navigate", r) && StartsWithCI(r, "to")
    requires 1 <= k2 && 2 + k2 < |r| && forall i :: 0 <= i < k2 ==> IsSpace(r[2..][i])
    ensures exists j :: 0 <= j <= |line| && KeywordThen(line, "navigate", line[j..]) && SpacedThen(line[j..], "to", r[2 + k2..])
  {
    var j := |line| - |r|;
    assert line[j..] == r;
    assert forall i :: 2 <= i < 2 + k2 ==> IsSpace(r[i]) by {
      assert forall i :: 2 <= i < 2 + k2 ==> r[i] == r[2..][i - 2];
    }
    assert SpacedThen(r, "to", r[2 + k2..]);
  }

  /**
   * A line gives a URL exactly when it has the navigate shape: `navigate` in
   * any case, an optional `:`, whitespace, an optional `to` and whitespace,
   * then the whitespace-free URL.
   */
  lemma NavigateTargetExact(line: string, url: string)
    ensures NavigateTarget(line) == Some(url) <==> NavigateShape(line, url)
  {
    if NavigateShape(line, url) {
      if KeywordThen(line, "navigate", url) {
        NavigateDirect(line, url);
      } else {
        var j :| 0 <= j <= |line| && KeywordThen(line, "navigate", line[j..]) && SpacedThen(line[j..], "to", url);
        NavigateAfterTo(line, line[j..], url);
      }
    }
  }

  lemma NavigateDirect(line: string, url: string)
    requires url != "" && AllNonSpace(url) && KeywordThen(line, "navigate", url)
    ensures NavigateTarget(line) == Some(url)
  {
    KeywordThenAfter(line, "navigate", url);
    if StartsWithCI(url, "to") {
      assert SpaceRun(url[2..]) == 0 by {
        assert |url[2..]| == 0 || !IsSpace(url[2..][0]);
      }
    }
  }

  lemma NavigateAfterTo(line: string, rest: string, url: string)
    requires url != "" && AllNonSpace(url)
    requires KeywordThen(line, "navigate", rest) && SpacedThen(rest, "to", url)
    ensures NavigateTarget(line) == Some(url)
  {
    assert !IsSpace(rest[0]) by {
      assert Lower(rest[0]) == Lower('t');
    }
    KeywordThenAfter(line, "navigate", rest);
    var after := AfterKeyword(line, "navigate").value;
    var k2 := |rest| - |url| - 2;
    GapAfterTo(rest, url);
    NavigateViaTo(line, after, rest, k2, url);
  }

  /** The whitespace after `to` is measured exactly, and the URL follows it. */
  lemma GapAfterTo(rest: string, url: string)
    requires url != "" && AllNonSpace(url) && SpacedThen(rest, "to", url)
    ensures SpaceRun(rest[2..]) == |rest| - |url| - 2 && rest[|rest| - |url|..] == url
  {
    var k2 := |rest| - |url| - 2;
    var s := rest[2..];
    assert s[k2..] == url;
    assert forall i :: 0 <= i < k2 ==> IsSpace(s[i]) by {
      assert forall i :: 0 <= i < k2 ==> s[i] == rest[i + 2];
    }
    assert !IsSpace(s[k2]) by {
      assert s[k2] == url[0];
    }
  }

  /** The steps of `NavigateTarget` through the `to` branch, once each intermediate text is known. */
  lemma NavigateViaTo(line: string, after: string, r: string, k2: nat, url: string)
    requires AfterKeyword(line, "navigate") == Some(after)
    requires SpaceRun(after) >= 1 && after[SpaceRun(after)..] == r
    requires StartsWithCI(r, "to") && 2 <= |r| && SpaceRun(r[2..]) == k2 && k2 >= 1
    requires 2 + k2 <= |r| && r[2 + k2..] == url && url != "" && AllNonSpace(url)
    ensures NavigateTarget(line) == Some(url)
  {
  }


  /**
   * `line` is `keyword` in any case, an optional `:`, one or more whitespace
   * characters, then `tail`: the shape `/^keyword\:?\s+(tail)$/i` matches.
   */
  predicate KeywordThen(line: string, keyword: string, tail: string) {
    && StartsWithCI(line, keyword)
    && |keyword| + |tail| <= |line|
    && line[|line| - |tail|..] == tail
    && var mid := line[|keyword|..|line| - |tail|];
       var gap := if |mid| > 0 && mid[0] == ':' then mid[1..] else mid;
       |gap| >= 1 && forall i :: 0 <= i < |gap| ==> IsSpace(gap[i])
  }

  /** Whitespace after the keyword and its colon, then the rest: the keyword shape holds. */
  lemma AfterKeywordSplit(line: string, keyword: string, after: string, k: nat)
    requires AfterKeyword(line, keyword) == Some(after)
    requires 1 <= k <= |after| && forall i :: 0 <= i < k ==> IsSpace(after[i])
    ensures KeywordThen(line, keyword, after[k..])
  {
    var tail := after[k..];
    var r := line[|keyword|..];
    var c := if |r| > 0 && r[0] == ':' then 1 else 0;
    assert after == r[c..];
    assert line[|line| - |tail|..] == tail;
    var mid := line[|keyword|..|line| - |tail|];
    assert mid == r[..c + k];
    if c == 1 {
      assert mid[0] == ':' && mid[1..] == after[..k];
    } else {
      assert mid == after[..k];
      assert mid[0] != ':' by { assert IsSpace(after[0]); }
    }
  }

  /** The keyword shape, with a tail not starting with whitespace, is what the scan reads back. */
  lemma KeywordThenAfter(line: string, keyword: string, tail: string)
    requires KeywordThen(line, keyword, tail) && (tail == "" || !IsSpace(tail[0]))
    ensures AfterKeyword(line, keyword).Some?
    ensures var after := AfterKeyword(line, keyword).value;
            SpaceRun(after) >= 1 && after[SpaceRun(after)..] == tail
  {
    var r := line[|keyword|..];
    var mid := line[|keyword|..|line| - |tail|];
    var c := if |mid| > 0 && mid[0] == ':' then 1 else 0;
    var gap := mid[c..];
    assert r == mid + tail;
    var after := AfterKeyword(line, keyword).value;
    assert after == gap + tail by {
      if c == 1 {
        assert r[0] == ':';
      } else {
        assert r[0] == gap[0] && gap[0] != ':' by { assert IsSpace(gap[0]); }
      }
    }
    assert forall i :: 0 <= i < |gap| ==> IsSpace(after[i]);
    assert |after| == |gap| || !IsSpace(after[|gap|]);
    assert SpaceRun(after) == |gap|;
  }

  /** `/^capture\:?\s+(\S+)$/i`, giving the URL fragment. */
  function CaptureTarget(line: string): (u: Option<string>)
    ensures u.Some? ==> u.value != "" && AllNonSpace(u.value)
    ensures u.Some? ==> KeywordThen(line, "capture", u.value)
  {
    match AfterKeyword(line, "capture")
    case None => None
    case Some(after) =>
      var k := SpaceRun(after);
      if k == 0 then None
      else
        AfterKeywordSplit(line, "capture", after, k);
        Token(after[k..])
  }

  /** A capture line reads exactly the token after the keyword, its colon and its whitespace. */
  lemma CaptureTargetExact(line: string, frag: string)
    ensures CaptureTarget(line) == Some(frag) <==> KeywordThen(line, "capture", frag) && frag != "" && AllNonSpace(frag)
  {
    if KeywordThen(line, "capture", frag) && frag != "" && AllNonSpace(frag) {
      KeywordThenAfter(line, "capture", frag);
    }
  }

  /** `/^extract\:?\s+/i`. */
  predicate IsExtract(line: string) {
    var a := AfterKeyword(line, "extract");
    a.Some? && SpaceRun(a.value) >= 1
  }

  /**
   * `/^evaluate\:?\s+(.+)$/i`, giving the code group. The greedy `\s+` leaves
   * the rest of the line to `.+`, which refuses line terminators; only when
   * nothing is left does the regex give back one whitespace character.
   */
  function EvaluateCode(line: string): (c: Option<string>)
    ensures c.Some? ==> c.value != "" && NoLineTerminator(c.value)
    ensures c.Some? ==> KeywordThen(line, "evaluate", c.value)
  {
    match AfterKeyword(line, "evaluate")
    case None => None
    case Some(after) =>
      var k := SpaceRun(after);
      if k == 0 then None
      else if k < |after| then
        var rest := after[k..];
        if NoLineTerminator(rest) then
          AfterKeywordSplit(line, "evaluate", after, k);
          Some(rest)
        else None
      else if k >= 2 && !IsLineTerminator(after[k - 1]) then
        AfterKeywordSplit(line, "evaluate", after, k - 1);
        Some(after[k - 1..])
      else None
  }

  /** `.` matches every character of `s`. */
  predicate NoLineTerminator(s: string) {
    forall i :: 0 <= i < |s| ==> !IsLineTerminator(s[i])
  }

  /** Code not starting with whitespace is read back exactly from an evaluate line. */
  lemma EvaluateCodeExact(line: string, code: string)
    requires code != "" && !IsSpace(code[0]) && NoLineTerminator(code)
    ensures EvaluateCode(line) == Some(code) <==> KeywordThen(line, "evaluate", code)
  {
    if KeywordThen(line, "evaluate", code) {
      KeywordThenAfter(line, "evaluate", code);
    }
  }

  /** `/^sleep\:?\s+(for\s+)?(\d+)$/i`. */
  predicate IsSleep(line: string) {
    match AfterKeyword(line, "sleep")
    case None => false
    case Some(after) =>
      var k := SpaceRun(after);
      k >= 1 &&
      var r := after[k..];
      || (r != "" && AllDigits(r))
      || (StartsWithCI(r, "for") &&
          var k2 := SpaceRun(r[3..]);
          k2 >= 1 && r[3 + k2..] != "" && AllDigits(r[3 + k2..]))
  }

  /** No rule of the instruction language matches the line. */
  predicate FreeText(line: string) {
    NavigateTarget(line).None? && CaptureTarget(line).None? && !IsExtract(line)
    && EvaluateCode(line).None? && !IsSleep(line)
  }

  /**
   * One trimmed instruction line, tried against navigate, capture, extract,
   * evaluate and sleep in that order; free text becomes an `action`.
   */
  function ClassifyLine(line: string): (r: Step)
    ensures Field(r, "type").Str?
    ensures KindOfStep(r).Some?
    ensures KindOfStep(r) == Some(Navigate) <==> NavigateTarget(line).Some?
    ensures KindOfStep(r) == Some(Action) <==> FreeText(line)
    ensures KindOfStep(r) == Some(Navigate) ==> Field(r, "url") == Str(NavigateTarget(line).value)
    ensures KindOfStep(r) == Some(Capture) ==>
              CaptureTarget(line).Some? && Field(r, "url") == Str(CaptureTarget(line).value)
    ensures KindOfStep(r) == Some(Evaluate) ==>
              EvaluateCode(line).Some? && Field(r, "script") == Str(EvaluateCode(line).value)
    ensures KindOfStep(r) == Some(Extract) || KindOfStep(r) == Some(Action) ==> Field(r, "prompt") == Str(line)
    ensures KindOfStep(r) == Some(Sleep) ==> Field(r, "duration") == NaN
  {
    match NavigateTarget(line)
    case Some(url) => NavigateStep(url)
    case None =>
      match CaptureTarget(line)
      case Some(url) => CaptureStep(url)
      case None =>
        if IsExtract(line) then PromptStep(Extract, line)
        else match EvaluateCode(line)
          case Some(code) => EvaluateStep(code)
          case None =>
            if IsSleep(line) then SleepStep() else PromptStep(Action, line)
  }

  /**
   * `line.match(/^\w/)` on the trimmed line: the first character that is not
   * whitespace is a word character.
   */
  predicate Kept(raw: string) {
    var k := SpaceRun(raw);
    k < |raw| && IsWordChar(raw[k])
  }

  /** The first non-space character is exactly where the trimmed line starts. */
  lemma KeptIsTrimmedWordStart(raw: string)
    ensures Kept(raw) <==> Trim(raw) != "" && IsWordChar(Trim(raw)[0])
  {
    var t := TrimRight(raw);
    var r := TrimLeft(t);
    var k := SpaceRun(raw);
    if r != "" {
      var j := |t| - |r|;
      assert t[j..] == r;
      assert raw[j] == r[0] by {
        assert raw[..|t|] == t;
        assert t[j] == r[0];
      }
      assert forall i :: 0 <= i < j ==> IsSpace(raw[i]) by {
        assert forall i :: 0 <= i < j ==> raw[i] == t[i];
      }
      assert k == j;
    } else {
      assert |t| == 0;
    }
  }

  /** The step an instruction line compiles to. */
  function LineStep(raw: string): Step {
    ClassifyLine(Trim(raw))
  }

  /** The instruction lines among `lines`, in order. */
  function KeptLines(lines: seq<string>): (r: seq<string>)
    ensures |r| <= |lines|
    ensures forall i :: 0 <= i < |r| ==> Kept(r[i])
    ensures forall x :: x in r <==> x in lines && Kept(x)
  {
    if |lines| == 0 then []
    else
      var rest := KeptLines(lines[1..]);
      if Kept(lines[0]) then
        assert forall i :: 1 <= i <= |rest| ==> ([lines[0]] + rest)[i] == rest[i - 1];
        [lines[0]] + rest
      else rest
  }

  /** A single line is kept exactly when it is an instruction line. */
  lemma KeptLinesOne(x: string)
    ensures KeptLines([x]) == if Kept(x) then [x] else []
  {
    assert [x][1..] == [];
  }

  /** Filtering concatenated line lists concatenates the filtered lists, so order is kept. */
  lemma {:induction false} KeptLinesAppend(a: seq<string>, b: seq<string>)
    ensures KeptLines(a + b) == KeptLines(a) + KeptLines(b)
    decreases |a|
  {
    if |a| == 0 {
      assert a + b == b;
    } else {
      assert (a + b)[0] == a[0];
      assert (a + b)[1..] == a[1..] + b;
      KeptLinesAppend(a[1..], b);
    }
  }

  /**
   * The `forEach` over the lines: blank lines and comments give no step, every
   * other line gives the one step `classify` makes of it, in source order.
   */
  function CompileLines(lines: seq<string>, classify: string -> Step): (r: seq<Step>)
    ensures |r| == |KeptLines(lines)|
    ensures forall i :: 0 <= i < |r| ==> r[i] == classify(KeptLines(lines)[i])
  {
    if |lines| == 0 then []
    else
      var rest := CompileLines(lines[1..], classify);
      if Kept(lines[0]) then [classify(lines[0])] + rest else rest
  }

  /** Compiling a text of lines distributes over splitting the lines. */
  lemma {:induction false} CompileLinesAppend(a: seq<string>, b: seq<string>, classify: string -> Step)
    ensures CompileLines(a + b, classify) == CompileLines(a, classify) + CompileLines(b, classify)
    decreases |a|
  {
    if |a| == 0 {
      assert a + b == b;
    } else {
      assert (a + b)[0] == a[0];
      assert (a + b)[1..] == a[1..] + b;
      CompileLinesAppend(a[1..], b, classify);
    }
  }

  /** The instruction language: the trimmed text split on newlines, line by line. */
  function CompileDsl(text: string): seq<Step> {
    CompileLines(Lines(Trim(text)), LineStep)
  }

  /** `/^\{[\S\s]+\}$/`: braces at both ends with at least one character between. */
  predicate JsonShaped(t: string) {
    |t| >= 3 && t[0] == '{' && t[|t| - 1] == '}'
  }

  /**
   * `compileScript`. Object scripts are taken as they are, JSON-shaped text
   * goes to the parser, other text is the instruction language. Only the
   * parser and unreadable scripts can fail; instruction text never does.
   */
  function Compile(script: Script, json: string -> JsonParse): (r: Result<seq<Step>, Failure>)
    ensures script.ObjectScript? ==> r.Ok?
    ensures script.TextScript? && !JsonShaped(Trim(script.text)) ==> r == Ok(CompileDsl(script.text))
    ensures r.Err? ==> r.error == ScriptSyntax || r.error == ScriptUnreadable
  {
    match script
    case ObjectScript(steps) => Ok(steps.GetOr([]))
    case TextScript(text) =>
      if JsonShaped(Trim(text)) then
        match json(text)
        case Malformed => Err(ScriptSyntax)
        case Parsed(None) => Err(ScriptUnreadable)
        case Parsed(Some(steps)) => Ok(steps)
      else Ok(CompileDsl(text))
    case OtherScript => Err(ScriptUnreadable)
  }

  /** An object script yields its own steps, or none when it has no steps. */
  lemma ObjectScriptVerbatim(steps: Option<seq<Step>>, json: string -> JsonParse)
    ensures Compile(ObjectScript(steps), json) == Ok(if steps.Some? then steps.value else [])
  {
  }

  /** `{}` is too short for the JSON shape, so it is read as instructions and gives no step. */
  lemma EmptyBracesGiveNoSteps(json: string -> JsonParse)
    ensures Compile(TextScript("{}"), json) == Ok([])
  {
    var text := "{}";
    BracesLine(text);
    assert KeptLines([text]) == [] by {
      assert [text][1..] == [];
    }
  }

  lemma BracesLine(text: string)
    requires text == "{}"
    ensures Trim(text) == text && !JsonShaped(text) && Lines(text) == [text] && !Kept(text)
  {
    assert text[0] == '{' && text[1] == '}' && |text| == 2;
    TrimUntouched(text);
    assert '\n' !in text;
    assert SpaceRun(text) == 0;
  }

  /** A JSON-shaped text is compiled only through the parser, whatever instructions it spells. */
  lemma JsonShapeGoesToParser(text: string, steps: seq<Step>, json: string -> JsonParse)
    requires JsonShaped(Trim(text)) && json(text) == Parsed(Some(steps))
    ensures Compile(TextScript(text), json) == Compile(ObjectScript(Some(steps)), json)
  {
  }

  /** A keyword followed by text not starting with a colon leaves exactly that text. */
  lemma KeywordArgument(kw: string, x: string)
    requires x == "" || x[0] != ':'
    ensures AfterKeyword(kw + x, kw) == Some(x)
  {
    var line := kw + x;
    assert forall i :: 0 <= i < |kw| ==> line[i] == kw[i];
    assert StartsWithCI(line, kw);
    assert line[|kw|..] == x;
  }

  /** A line whose first letter differs from the keyword's does not match it. */
  lemma OtherKeyword(line: string, kw: string)
    requires line != "" && kw != "" && Lower(line[0]) != Lower(kw[0])
    ensures AfterKeyword(line, kw).None?
  {
  }

  /** One space before a token is the whole whitespace run. */
  lemma SpacedToken(x: string)
    requires x != "" && !IsSpace(x[0])
    ensures SpaceRun(" " + x) == 1 && (" " + x)[1..] == x
  {
    assert (" " + x)[1] == x[0];
  }

  /** `navigate <url>` navigates to the single token after the keyword. */
  lemma NavigateLine(url: string)
    requires url != "" && AllNonSpace(url)
    ensures ClassifyLine("navigate" + " " + url) == NavigateStep(url)
  {
    Assoc("navigate", " ", url);
    KeywordArgument("navigate", " " + url);
    SpacedToken(url);
    if StartsWithCI(url, "to") {
      assert SpaceRun(url[2..]) == 0 by {
        assert |url[2..]| == 0 || !IsSpace(url[2..][0]);
      }
    }
  }

  /** `navigate to <url>` drops the optional `to`. */
  lemma NavigateToLine(url: string)
    requires url != "" && AllNonSpace(url)
    ensures ClassifyLine("navigate" + " " + "to" + " " + url) == NavigateStep(url)
  {
    NavigateToTarget(url);
  }

  lemma NavigateToTarget(url: string)
    requires url != "" && AllNonSpace(url)
    ensures NavigateTarget("navigate" + " " + "to" + " " + url) == Some(url)
  {
    var r := "to" + " " + url;
    Assoc("navigate" + " ", "to", " " + url);
    Assoc("navigate", " ", r);
    Assoc("to", " ", url);
    assert "navigate" + " " + "to" + " " + url == "navigate" + (" " + r);
    KeywordArgument("navigate", " " + r);
    SpacedToken(r);
    KeywordArgument("to", " " + url);
    SpacedToken(url);
  }

  lemma ShortTokenNotTo(a: string, b: string)
    requires |a| == 1
    ensures !StartsWithCI(a + " " + b, "to")
  {
    assert (a + " " + b)[1] == ' ';
  }

  lemma LongTokenNoSpace(a: string, b: string)
    requires |a| > 2 && AllNonSpace(a)
    ensures SpaceRun((a + " " + b)[2..]) == 0
  {
    assert (a + " " + b)[2..][0] == a[2];
  }

  /** `to` followed by whitespace in a two-token remainder means the first token is `to`. */
  lemma OnlyToPrefix(a: string, b: string)
    requires a != "" && AllNonSpace(a)
    requires StartsWithCI(a + " " + b, "to") && SpaceRun((a + " " + b)[2..]) >= 1
    ensures |a| == 2 && StartsWithCI(a, "to")
  {
    var r := a + " " + b;
    if |a| > 2 {
      LongTokenNoSpace(a, b);
      assert false;
    }
    if |a| < 2 {
      ShortTokenNotTo(a, b);
      assert false;
    }
    assert forall i :: 0 <= i < 2 ==> a[i] == r[i];
  }

  /** No URL is read from a navigate line with two tokens after the keyword. */
  lemma TwoTokensNoNavigate(a: string, b: string)
    requires a != "" && AllNonSpace(a) && b != "" && AllNonSpace(b)
    requires !(|a| == 2 && StartsWithCI(a, "to"))
    ensures NavigateTarget("navigate" + " " + (a + " " + b)).None?
  {
    var r := a + " " + b;
    Assoc("navigate", " ", r);
    KeywordArgument("navigate", " " + r);
    SpacedToken(r);
    assert !AllNonSpace(r) by { assert IsSpace(r[|a|]); }
    if StartsWithCI(r, "to") && SpaceRun(r[2..]) >= 1 {
      OnlyToPrefix(a, b);
    }
  }

  /** A navigate line with more than one token after the keyword falls through to `action`. */
  lemma ExtraTokenIsAction(a: string, b: string)
    requires a != "" && AllNonSpace(a) && b != "" && AllNonSpace(b)
    requires !(|a| == 2 && StartsWithCI(a, "to"))
    ensures var line := "navigate" + " " + (a + " " + b);
            ClassifyLine(line) == PromptStep(Action, line)
  {
    var line := "navigate" + " " + (a + " " + b);
    TwoTokensNoNavigate(a, b);
    assert line[0] == 'n';
    OtherKeyword(line, "capture");
    OtherKeyword(line, "extract");
    OtherKeyword(line, "evaluate");
    OtherKeyword(line, "sleep");
  }

  /** A line whose character at `i` differs from the keyword's does not match it. */
  lemma OtherKeywordAt(line: string, kw: string, i: nat)
    requires i < |line| && i < |kw| && Lower(line[i]) != Lower(kw[i])
    ensures AfterKeyword(line, kw).None?
  {
  }

  /** The keyword, one space, and the rest: the keyword shape with that rest. */
  lemma SpacedKeyword(kw: string, tail: string)
    ensures KeywordThen(kw + " " + tail, kw, tail)
  {
    var line := kw + " " + tail;
    assert forall i :: 0 <= i < |kw| ==> line[i] == kw[i];
    assert line[|line| - |tail|..] == tail;
    var mid := line[|kw|..|line| - |tail|];
    assert mid == " ";
    assert mid[0] == ' ' && IsSpace(mid[0]);
  }

  /**
   * The rules are tried in source order: each kind is produced exactly when
   * its rule matches and no earlier rule does.
   */
  lemma ClassifyLineRules(line: string)
    ensures var k := KindOfStep(ClassifyLine(line));
      && (k == Some(Capture) <==> NavigateTarget(line).None? && CaptureTarget(line).Some?)
      && (k == Some(Extract) <==> NavigateTarget(line).None? && CaptureTarget(line).None? && IsExtract(line))
      && (k == Some(Evaluate) <==>
            NavigateTarget(line).None? && CaptureTarget(line).None? && !IsExtract(line)
            && EvaluateCode(line).Some?)
      && (k == Some(Sleep) <==>
            NavigateTarget(line).None? && CaptureTarget(line).None? && !IsExtract(line)
            && EvaluateCode(line).None? && IsSleep(line))
  {
  }

  /** `capture <fragment>` registers that fragment. */
  lemma CaptureLine(frag: string)
    requires frag != "" && AllNonSpace(frag)
    ensures ClassifyLine("capture" + " " + frag) == CaptureStep(frag)
  {
    var line := "capture" + " " + frag;
    assert line[0] == 'c';
    OtherKeywordAt(line, "navigate", 0);
    SpacedKeyword("capture", frag);
    CaptureTargetExact(line, frag);
  }

  /** `evaluate <code>` runs the code as written, when it starts with no whitespace. */
  lemma EvaluateLine(code: string)
    requires code != "" && !IsSpace(code[0]) && NoLineTerminator(code)
    ensures ClassifyLine("evaluate" + " " + code) == EvaluateStep(code)
  {
    var line := "evaluate" + " " + code;
    assert line[0] == 'e' && line[1] == 'v';
    OtherKeywordAt(line, "navigate", 0);
    OtherKeywordAt(line, "capture", 0);
    OtherKeywordAt(line, "extract", 1);
    SpacedKeyword("evaluate", code);
    EvaluateCodeExact(line, code);
  }

  /** `extract <anything>` becomes an extraction whose prompt is the whole line. */
  lemma ExtractLine(x: string)
    ensures var line := "extract" + " " + x;
            ClassifyLine(line) == PromptStep(Extract, line)
  {
    var line := "extract" + " " + x;
    Assoc("extract", " ", x);
    assert line[0] == 'e';
    OtherKeywordAt(line, "navigate", 0);
    OtherKeywordAt(line, "capture", 0);
    KeywordArgument("extract", " " + x);
    assert (" " + x)[0] == ' ';
  }

  /** A sleep line compiles to a sleep step whose duration is NaN, not the digits it carries. */
  lemma SleepLineDurationLost(digits: string)
    requires digits != "" && AllDigits(digits)
    ensures ClassifyLine("sleep" + " " + digits) == SleepStep()
  {
    var line := "sleep" + " " + digits;
    Assoc("sleep", " ", digits);
    assert line[0] == 's';
    OtherKeyword(line, "navigate");
    OtherKeyword(line, "capture");
    OtherKeyword(line, "extract");
    OtherKeyword(line, "evaluate");
    KeywordArgument("sleep", " " + digits);
    SpacedToken(digits);
  }
}

=== FILE: errors.dfy ===
/** The errors a run can end with; each names the source's thrown error. */
module Errors {
  import opened Values
  import opened Steps

  datatype Failure =
    | ScriptSyntax                 // JSON.parse rejected a JSON-shaped script
    | ScriptUnreadable             // TypeError: the script or its steps cannot be read
    | NoSteps                      // "Cannot run script: No steps found."
    | SelectorsNotJoinable(kind: Kind)  // TypeError from `step.selectors.join` in the log line
    | InvalidUrl(url: Value)       // "Navigate: Invalid URL: ..."
    | InvalidMatch(url: Value)     // "Capture: Invalid match: ..."
    | NoPrompt(kind: Kind)         // action / extract without a prompt
    | NoKey(kind: Kind)            // keyDown / keyUp without a key
    | NoText                       // "Text: Missing text to enter."
    | NoScript                     // "Evaluate: Missing script code to execute."
    | NoDuration                   // "Sleep: Missing duration (ms) to sleep for."
    | NoSize                       // "setViewPort: width and/or height missing."
    | UnboundSize                  // ReferenceError: `width` is not defined
    | NoSelectors(stepType: string)  // "Step of type '...' has no selectors"
    | NoTarget(stepType: string)     // "Could not build any locator for step type: ..."
    | EnvMissing(name: string)     // "Environment variable not found: ..."
    | ActionFailed                 // the AI action reported no success
    | ExtractionFailed(prompt: Value)  // the AI extraction returned nothing
    | PageFailed(kind: Kind)       // the browser operation threw (timeout, navigation error)
}

=== FILE: executor.dfy ===
/**
 * The executor: each handler's validation and effect, one pass of `runStep`,
 * the `runScript` loop and the job around it. Browser and AI calls are not
 * modelled; what such a call returned at a given step position, or that it
 * threw, is supplied as an `Outcome`.
 */
module Executor {
  import opened Wrappers
  import opened Text
  import opened Values
  import opened Steps
  import opened Errors
  import opened Interpolation
  import opened Selectors
  import opened Output
  import opened Network
  import opened Compiler

  /** `/^\w+\:\/\/\S+$/`: a scheme of word characters, `://`, then one or more non-space characters. */
  predicate IsUrl(s: string) {
    var w := WordRun(s);
    1 <= w && w + 3 < |s| && s[w] == ':' && s[w + 1] == '/' && s[w + 2] == '/' && AllNonSpace(s[w + 3..])
  }

  /** What a handler goes on to do once its step passed validation. */
  datatype Plan =
    | Goto(url: string)                                   // page.goto
    | Refresh                                             // page.reload
    | Watch(rule: CaptureRule)                            // captures.push
    | Act(prompt: Value)                                  // stagehand.act
    | Scrape(prompt: Value)                               // stagehand.extract
    | Locate(kind: Kind, targets: seq<Target>, fill: string)  // click, dblclick, fill, waitFor
    | Press(kind: Kind, key: Value)                       // keyboard.down / keyboard.up
    | Insert(text: string)                                // keyboard.insertText
    | Eval(script: Value, code: string)                   // page.evaluate
    | Pause(duration: Value)                              // sleep

  /** Only targeted kinds locate an element and only the key kinds press a key. */
  predicate WellFormed(p: Plan) {
    && (p.Locate? ==> Targeted(p.kind))
    && (p.Press? ==> p.kind == KeyDown || p.kind == KeyUp)
  }

  /** The handler a plan belongs to. */
  function PlanKind(p: Plan): Kind {
    match p
    case Goto(_) => Navigate
    case Refresh => Reload
    case Watch(_) => Capture
    case Act(_) => Action
    case Scrape(_) => Extract
    case Locate(k, _, _) => k
    case Press(k, _) => k
    case Insert(_) => TypeText
    case Eval(_, _) => Evaluate
    case Pause(_) => Sleep
  }

  /**
   * The errors each step kind can end a run with: its own guard messages,
   * the locator errors for targeted kinds, a missing variable where text is
   * interpolated, and a thrown browser call where one is made.
   */
  predicate Raises(k: Kind, e: Failure) {
    match e
    case SelectorsNotJoinable(k2) => k2 == k && Targeted(k)
    case InvalidUrl(_) => k == Navigate
    case InvalidMatch(_) => k == Capture
    case NoPrompt(k2) => k2 == k && (k == Action || k == Extract)
    case NoKey(k2) => k2 == k && (k == KeyDown || k == KeyUp)
    case NoText => k == TypeText
    case NoScript => k == Evaluate
    case NoDuration => k == Sleep
    case NoSize => k == SetViewport
    case UnboundSize => k == SetViewport
    case NoSelectors(_) => Targeted(k)
    case NoTarget(_) => Targeted(k)
    case EnvMissing(_) => k == Change || k == TypeText || k == Evaluate
    case ActionFailed => k == Action
    case ExtractionFailed(_) => k == Extract
    case PageFailed(k2) => k2 == k && k != Capture && k != Sleep && k != SetViewport
    case _ => false
  }

  /** A handler's `if (!step.<field>) throw` guard fires. */
  predicate Unmet(k: Kind, step: Step) {
    match k
    case Navigate => !Truthy(Field(step, "url"))
    case Capture => !Truthy(Field(step, "url"))
    case Action => !Truthy(Field(step, "prompt"))
    case Extract => !Truthy(Field(step, "prompt"))
    case KeyDown => !Truthy(Field(step, "key"))
    case KeyUp => !Truthy(Field(step, "key"))
    case TypeText => !Truthy(Field(step, "text"))
    case Evaluate => !Truthy(Field(step, "script"))
    case Sleep => !Truthy(Field(step, "duration"))
    case SetViewport => !Truthy(Field(step, "width")) || !Truthy(Field(step, "height"))
    case _ => false
  }

  /** The error a handler throws when its `if (!step.<field>)` guard fires. */
  function GuardError(k: Kind, step: Step): Failure
    requires Unmet(k, step)
  {
    match k
    case Navigate => InvalidUrl(Field(step, "url"))
    case Capture => InvalidMatch(Field(step, "url"))
    case Action => NoPrompt(Action)
    case Extract => NoPrompt(Extract)
    case KeyDown => NoKey(KeyDown)
    case KeyUp => NoKey(KeyUp)
    case TypeText => NoText
    case Evaluate => NoScript
    case Sleep => NoDuration
    case SetViewport => NoSize
  }

  /** `step.value ?? ""`: null and undefined fall back to the empty string. */
  function OrEmpty(v: Value): Value {
    if v.Undefined? || v.Null? then Str("") else v
  }

  /**
   * The validating half of the handler for kind `k`: everything it checks
   * and computes before its first browser or AI call.
   */
  function Prepare(k: Kind, step: Step, env: Env): (r: Result<Plan, Failure>)
    ensures r.Ok? ==> PlanKind(r.value) == k && k != SetViewport && WellFormed(r.value)
  {
    if Targeted(k) then Locating(k, BuildTarget(step), Field(step, "value"), env)
    else if k == TypeText || k == Evaluate then Substituting(k, step, env)
    else Guarded(k, step)
  }

  /** Validation fails whenever the handler's `if (!step.<field>) throw` guard fires, with that guard's error. */
  lemma PrepareFailsOnUnmet(k: Kind, step: Step, env: Env)
    ensures Unmet(k, step) ==> Prepare(k, step, env).Err?
    ensures Unmet(k, step) ==> Prepare(k, step, env) == Err(GuardError(k, step))
  {
    if Unmet(k, step) {
      assert !Targeted(k);
      if k == TypeText || k == Evaluate {
        assert Prepare(k, step, env) == Substituting(k, step, env);
      } else {
        assert Prepare(k, step, env) == Guarded(k, step);
      }
    }
  }

  /** Validation fails only with an error the step's kind can raise. */
  lemma PrepareRaises(k: Kind, step: Step, env: Env)
    ensures Prepare(k, step, env).Err? ==> Raises(k, Prepare(k, step, env).error)
  {
    if Targeted(k) {
      assert Prepare(k, step, env) == Locating(k, BuildTarget(step), Field(step, "value"), env);
    } else if k == TypeText || k == Evaluate {
      assert Prepare(k, step, env) == Substituting(k, step, env);
    } else {
      assert Prepare(k, step, env) == Guarded(k, step);
    }
  }

  /** A targeted step whose locator cannot be built fails with the locator's own error. */
  lemma PrepareLocatorError(k: Kind, step: Step, env: Env)
    ensures Targeted(k) && BuildTarget(step).Err? ==> Prepare(k, step, env) == Err(BuildTarget(step).error)
  {
  }

  /** Validation reports a missing variable only when that variable is unusable. */
  lemma PrepareEnvMissing(k: Kind, step: Step, env: Env)
    ensures Prepare(k, step, env).Err? && Prepare(k, step, env).error.EnvMissing? ==>
              !Usable(env, Prepare(k, step, env).error.name)
  {
    if Targeted(k) {
      assert Prepare(k, step, env) == Locating(k, BuildTarget(step), Field(step, "value"), env);
    } else if k == TypeText || k == Evaluate {
      assert Prepare(k, step, env) == Substituting(k, step, env);
    } else {
      assert Prepare(k, step, env) == Guarded(k, step);
    }
  }

  /**
   * When a handler gets past its checks: the conditions each `runStep_<kind>`
   * tests before its first browser or AI call, stated per kind.
   */
  predicate Validates(k: Kind, step: Step, env: Env) {
    if Targeted(k) then
      BuildTarget(step).Ok? && (k == Change ==> Interpolate(ToText(OrEmpty(Field(step, "value"))), env).Ok?)
    else
      match k
      case Navigate => Field(step, "url").Str? && IsUrl(Field(step, "url").s)
      case Reload => true
      case Capture => Field(step, "url").Str? && Field(step, "url").s != ""
      case SetViewport => false
      case TypeText => Truthy(Field(step, "text")) && Interpolate(ToText(Field(step, "text")), env).Ok?
      case Evaluate => Truthy(Field(step, "script")) && Interpolate(ToText(Field(step, "script")), env).Ok?
      case _ => !Unmet(k, step)
  }

  /**
   * Validation succeeds exactly when the handler's checks pass: every step
   * meeting its guards, with a buildable locator and usable placeholders, goes
   * on to its browser or AI call.
   */
  lemma PrepareSucceedsWhenMet(k: Kind, step: Step, env: Env)
    ensures Prepare(k, step, env).Ok? <==> Validates(k, step, env)
  {
    if Targeted(k) {
      assert Prepare(k, step, env) == Locating(k, BuildTarget(step), Field(step, "value"), env);
    } else if k == TypeText || k == Evaluate {
      assert Prepare(k, step, env) == Substituting(k, step, env);
    } else {
      assert Prepare(k, step, env) == Guarded(k, step);
    }
  }

  /** The handlers that only check one field before their browser call. */
  function Guarded(k: Kind, step: Step): (r: Result<Plan, Failure>)
    requires !Targeted(k) && k != TypeText && k != Evaluate
    ensures Unmet(k, step) ==> r == Err(GuardError(k, step))
    ensures r.Err? ==> Raises(k, r.error) && !r.error.EnvMissing?
    ensures r.Ok? ==> PlanKind(r.value) == k && k != SetViewport && WellFormed(r.value)
    ensures r.Ok? && k == Navigate ==> IsUrl(r.value.url) && Field(step, "url") == Str(r.value.url)
    ensures r.Ok? && k == Capture ==>
      && r.value.rule.url != "" && Field(step, "url") == Str(r.value.rule.url)
      && (r.value.rule.download <==> Truthy(Field(step, "download")))
      && (r.value.rule.pretty <==> Truthy(Field(step, "pretty")))
    ensures k == Navigate ==> (r.Ok? <==> Field(step, "url").Str? && IsUrl(Field(step, "url").s))
    ensures k == Navigate && r.Err? ==> r.error == InvalidUrl(Field(step, "url"))
    ensures k == Reload ==> r == Ok(Refresh)
    ensures k == Capture ==> (r.Ok? <==> Field(step, "url").Str? && Field(step, "url").s != "")
    ensures k == Capture && r.Err? ==> r.error == InvalidMatch(Field(step, "url"))
    ensures (k == Action || k == Extract || k == KeyDown || k == KeyUp || k == Sleep) ==> (r.Ok? <==> !Unmet(k, step))
    ensures r.Ok? && (k == Action || k == Extract) ==> r.value.prompt == Field(step, "prompt")
    ensures r.Ok? && (k == KeyDown || k == KeyUp) ==> r.value.key == Field(step, "key")
    ensures r.Ok? && k == Sleep ==> r.value.duration == Field(step, "duration")
  {
    match k
    case Navigate =>
      var url := Field(step, "url");
      if url.Str? && IsUrl(url.s) then Ok(Goto(url.s)) else Err(InvalidUrl(url))
    case Reload => Ok(Refresh)
    case Capture =>
      var url := Field(step, "url");
      if url.Str? && url.s != "" then
        Ok(Watch(CaptureRule(url.s, Truthy(Field(step, "download")), Truthy(Field(step, "pretty")))))
      else Err(InvalidMatch(url))
    case Action =>
      var prompt := Field(step, "prompt");
      if Truthy(prompt) then Ok(Act(prompt)) else Err(NoPrompt(Action))
    case Extract =>
      var prompt := Field(step, "prompt");
      if Truthy(prompt) then Ok(Scrape(prompt)) else Err(NoPrompt(Extract))
    case SetViewport =>
      if Truthy(Field(step, "width")) && Truthy(Field(step, "height")) then Err(UnboundSize) else Err(NoSize)
    case KeyDown =>
      var key := Field(step, "key");
      if Truthy(key) then Ok(Press(KeyDown, key)) else Err(NoKey(KeyDown))
    case KeyUp =>
      var key := Field(step, "key");
      if Truthy(key) then Ok(Press(KeyUp, key)) else Err(NoKey(KeyUp))
    case Sleep =>
      var duration := Field(step, "duration");
      if Truthy(duration) then Ok(Pause(duration)) else Err(NoDuration)
  }

  /**
   * The targeted handlers, given the locator they built first; `change` then
   * fills in `value ?? ""` with its placeholders substituted.
   */
  function Locating(k: Kind, built: Result<seq<Target>, Failure>, value: Value, env: Env): (r: Result<Plan, Failure>)
    requires Targeted(k)
    requires built.Err? ==> built.error.NoSelectors? || built.error.NoTarget?
    ensures built.Err? ==> r == Err(built.error)
    ensures r.Err? ==> Raises(k, r.error)
    ensures r.Err? && r.error.EnvMissing? ==> k == Change && !Usable(env, r.error.name)
    ensures r.Ok? ==> r.value.Locate? && r.value.kind == k && built == Ok(r.value.targets)
    ensures r.Ok? ==> PlanKind(r.value) == k && WellFormed(r.value)
    ensures r.Ok? && k != Change ==> r.value.fill == ""
    ensures built.Ok? && k != Change ==> r == Ok(Locate(k, built.value, ""))
    ensures built.Ok? && k == Change ==>
      var fill := Interpolate(ToText(OrEmpty(value)), env);
      && (r.Ok? <==> fill.Ok?)
      && (r.Ok? ==> r.value == Locate(Change, built.value, fill.value))
      && (r.Err? ==> r.error == fill.error)
  {
    match built
    case Err(e) => Err(e)
    case Ok(targets) =>
      if k != Change then Ok(Locate(k, targets, ""))
      else
        match Interpolate(ToText(OrEmpty(value)), env)
        case Err(e) => Err(e)
        case Ok(fill) => Ok(Locate(Change, targets, fill))
  }

  /** `text` and `evaluate` check their field, then substitute placeholders in its string form. */
  function Substituting(k: Kind, step: Step, env: Env): (r: Result<Plan, Failure>)
    requires k == TypeText || k == Evaluate
    ensures Unmet(k, step) ==> r == Err(GuardError(k, step))
    ensures r.Err? ==> Raises(k, r.error)
    ensures r.Err? && r.error.EnvMissing? ==> !Usable(env, r.error.name)
    ensures r.Ok? ==> PlanKind(r.value) == k && WellFormed(r.value)
    ensures r.Ok? && k == Evaluate ==> r.value.Eval? && r.value.script == Field(step, "script")
    ensures k == TypeText && Truthy(Field(step, "text")) ==>
      var typed := Interpolate(ToText(Field(step, "text")), env);
      && (r.Ok? <==> typed.Ok?)
      && (r.Ok? ==> r.value == Insert(typed.value))
      && (r.Err? ==> r.error == typed.error)
    ensures k == Evaluate && Truthy(Field(step, "script")) ==>
      var code := Interpolate(ToText(Field(step, "script")), env);
      && (r.Ok? <==> code.Ok?)
      && (r.Ok? ==> r.value == Eval(Field(step, "script"), code.value))
      && (r.Err? ==> r.error == code.error)
  {
    if k == TypeText then
      var text := Field(step, "text");
      if !Truthy(text) then Err(NoText)
      else
        var typed :- Interpolate(ToText(text), env);
        Ok(Insert(typed))
    else
      var script := Field(step, "script");
      if !Truthy(script) then Err(NoScript)
      else
        var code :- Interpolate(ToText(script), env);
        Ok(Eval(script, code))
  }

  /** What the browser or AI call of a step returned, or that it threw. */
  datatype Outcome = Completed(value: Value) | Failed

  /** The executor's state between steps: the result document, the capture rules, `stepIdx`. */
  datatype State = State(output: Document, rules: seq<CaptureRule>, done: nat)

  /** The state a job starts from. */
  const Initial := State(Empty, [], 0)

  /**
   * The effecting half of a handler. For an action the outcome's value is the
   * result's `success` field; for an extraction and an evaluation it is the
   * result itself.
   */
  function Apply(plan: Plan, out: Outcome, st: State): (r: Result<State, Failure>)
    requires WellFormed(plan)
    ensures r.Err? ==> Raises(PlanKind(plan), r.error)
    ensures plan.Watch? || plan.Pause? ==> r.Ok?
    ensures out.Failed? && !plan.Watch? && !plan.Pause? ==> r == Err(PageFailed(PlanKind(plan)))
    ensures out.Completed? && !plan.Act? && !plan.Scrape? ==> r.Ok?
    ensures plan.Act? && out.Completed? ==>
      (r.Ok? <==> Truthy(out.value)) && (r.Err? ==> r.error == ActionFailed)
    ensures plan.Scrape? && out.Completed? ==>
      (r.Ok? <==> Truthy(out.value)) && (r.Err? ==> r.error == ExtractionFailed(plan.prompt))
    ensures r.Ok? ==> r.value.done == st.done && r.value.output.captures == st.output.captures
    ensures r.Ok? ==> r.value.rules == st.rules + (if plan.Watch? then [plan.rule] else [])
    ensures r.Ok? ==> Extends(st.output.extractions, r.value.output.extractions)
    ensures r.Ok? ==> Extends(st.output.evaluations, r.value.output.evaluations)
    ensures r.Ok? && !plan.Scrape? ==> r.value.output.extractions == st.output.extractions
    ensures r.Ok? && !plan.Eval? ==> r.value.output.evaluations == st.output.evaluations
    ensures r.Ok? && plan.Scrape? ==>
      var items := Items(r.value.output.extractions);
      && |items| == |Items(st.output.extractions)| + 1
      && items[|items| - 1] == Extraction(plan.prompt, out.value) && Truthy(out.value)
    ensures r.Ok? && plan.Eval? ==>
      var items := Items(r.value.output.evaluations);
      && |items| == |Items(st.output.evaluations)| + 1
      && items[|items| - 1] == Evaluation(plan.script, out.value)
  {
    match plan
    case Watch(rule) => Ok(st.(rules := st.rules + [rule]))
    case Pause(_) => Ok(st)
    case Act(_) =>
      if out.Failed? then Err(PageFailed(Action))
      else if Truthy(out.value) then Ok(st) else Err(ActionFailed)
    case Scrape(prompt) =>
      if out.Failed? then Err(PageFailed(Extract))
      else if Truthy(out.value) then
        Ok(st.(output := st.output.(extractions := Push(st.output.extractions, Extraction(prompt, out.value)))))
      else Err(ExtractionFailed(prompt))
    case Eval(script, _) =>
      if out.Failed? then Err(PageFailed(Evaluate))
      else Ok(st.(output := st.output.(evaluations := Push(st.output.evaluations, Evaluation(script, out.value)))))
    case _ =>
      if out.Failed? then Err(PageFailed(PlanKind(plan))) else Ok(st)
  }

  /**
   * The log line before the handler: for a step whose `type` is exactly a
   * targeted kind's name, `step.selectors.join(', ')` throws unless the
   * selectors are an array.
   */
  predicate LogThrows(step: Step, k: Kind) {
    Targeted(k) && Field(step, "type") == Str(KindName(k)) && !Field(step, "selectors").List?
  }

  /**
   * A completed step counts once, leaves the captures to the response
   * handler, and only appends to the other lists and to the rules.
   */
  predicate Grows(st: State, next: State) {
    && next.done == st.done + 1
    && next.output.captures == st.output.captures
    && Extends(st.output.extractions, next.output.extractions)
    && Extends(st.output.evaluations, next.output.evaluations)
    && st.rules <= next.rules
  }

  /** One `runStep`: skipped, completed with the new state, or thrown. */
  datatype StepResult = Skip | Advance(state: State) | Abort(failure: Failure)

  function ExecStep(step: Step, st: State, out: Outcome, env: Env): (r: StepResult)
    ensures r.Skip? <==> KindOfStep(step).None?
    ensures r.Abort? ==> Raises(KindOfStep(step).value, r.failure)
    ensures r.Advance? ==> Grows(st, r.state)
    ensures r.Advance? && KindOfStep(step) != Some(Capture) ==> r.state.rules == st.rules
    ensures KindOfStep(step).Some? && LogThrows(step, KindOfStep(step).value) ==>
              r == Abort(SelectorsNotJoinable(KindOfStep(step).value))
    ensures KindOfStep(step).Some? && !LogThrows(step, KindOfStep(step).value) ==>
              var prepared := Prepare(KindOfStep(step).value, step, env);
              && (prepared.Err? ==> r == Abort(prepared.error))
              && (prepared.Ok? && Apply(prepared.value, out, st).Err? ==>
                    r == Abort(Apply(prepared.value, out, st).error))
              && (prepared.Ok? && Apply(prepared.value, out, st).Ok? ==>
                    var next := Apply(prepared.value, out, st).value;
                    r == Advance(next.(done := next.done + 1)))
  {
    match KindOfStep(step)
    case None => Skip
    case Some(k) =>
      if LogThrows(step, k) then Abort(SelectorsNotJoinable(k))
      else
        PrepareRaises(k, step, env);
        Proceed(Prepare(k, step, env), out, st)
  }

  /** The rest of a step once its log line is written: validate, then take effect and count. */
  function Proceed(prepared: Result<Plan, Failure>, out: Outcome, st: State): StepResult
    requires prepared.Ok? ==> WellFormed(prepared.value)
  {
    match prepared
    case Err(e) => Abort(e)
    case Ok(plan) =>
      match Apply(plan, out, st)
      case Err(e) => Abort(e)
      case Ok(next) => Advance(next.(done := next.done + 1))
  }

  /** A targeted step that passed validation carries every first-choice locator, in order. */
  lemma PrepareTargets(k: Kind, step: Step, env: Env)
    requires Targeted(k) && Prepare(k, step, env).Ok?
    ensures Field(step, "selectors").List?
    ensures Prepare(k, step, env).value.targets == Alternatives(Field(step, "selectors").items)
    ensures |Prepare(k, step, env).value.targets| >= 1
  {
  }

  /**
   * `change` types its value verbatim when the value has no placeholder;
   * a missing value fills the field with "".
   */
  lemma ChangeFillsLiteral(step: Step, env: Env)
    requires forall i :: !PlaceholderAt(ToText(OrEmpty(Field(step, "value"))), i)
    ensures BuildTarget(step).Err? ==> Prepare(Change, step, env) == Err(BuildTarget(step).error)
    ensures BuildTarget(step).Ok? ==>
      Prepare(Change, step, env) == Ok(Locate(Change, BuildTarget(step).value, ToText(OrEmpty(Field(step, "value")))))
    ensures BuildTarget(step).Ok? && Field(step, "value").Undefined? ==>
      Prepare(Change, step, env).Ok? && Prepare(Change, step, env).value.fill == ""
  {
    NoPlaceholderUnchanged(ToText(OrEmpty(Field(step, "value"))), env);
  }

  /** The field `text` types, or `evaluate` runs. */
  function SourceField(k: Kind): string {
    if k == TypeText then "text" else "script"
  }

  /** `text` types, and `evaluate` runs, a placeholder-free field exactly as its string form. */
  lemma SubstitutingLiteral(k: Kind, step: Step, env: Env)
    requires k == TypeText || k == Evaluate
    requires Truthy(Field(step, SourceField(k)))
    requires forall i :: !PlaceholderAt(ToText(Field(step, SourceField(k))), i)
    ensures Prepare(k, step, env)
            == Ok(if k == TypeText then Insert(ToText(Field(step, "text")))
                  else Eval(Field(step, "script"), ToText(Field(step, "script"))))
  {
    NoPlaceholderUnchanged(ToText(Field(step, SourceField(k))), env);
    assert Prepare(k, step, env) == Substituting(k, step, env);
  }

  /**
   * The first placeholder of the field naming an unset or empty variable
   * stops `text` and `evaluate` with the error naming it.
   */
  lemma SubstitutingMissing(k: Kind, step: Step, env: Env, lit: string, name: string, rest: string)
    requires k == TypeText || k == Evaluate
    requires Field(step, SourceField(k)) == Str(lit + Placeholder(name) + rest)
    requires '%' !in lit && IsName(name) && !Usable(env, name)
    ensures Prepare(k, step, env) == Err(EnvMissing(name))
  {
    SubstituteOne(lit, name, rest, env);
    assert Prepare(k, step, env) == Substituting(k, step, env);
  }

  /**
   * Validation comes before any browser or AI call: a step that fails its
   * log line or its checks fails the same way whatever the call would have done.
   */
  lemma ValidationPrecedesEffects(step: Step, st: State, out1: Outcome, out2: Outcome, env: Env)
    requires KindOfStep(step).Some?
    requires LogThrows(step, KindOfStep(step).value) || Prepare(KindOfStep(step).value, step, env).Err?
    ensures ExecStep(step, st, out1, env).Abort?
    ensures ExecStep(step, st, out1, env) == ExecStep(step, st, out2, env)
    ensures !LogThrows(step, KindOfStep(step).value) ==>
              ExecStep(step, st, out1, env) == Abort(Prepare(KindOfStep(step).value, step, env).error)
  {
  }

  /** `setViewport` never completes: it throws on a missing size, and otherwise on the unbound `width`. */
  lemma SetViewportNeverCompletes(step: Step, st: State, out: Outcome, env: Env)
    requires KindOfStep(step) == Some(SetViewport)
    ensures ExecStep(step, st, out, env) ==
      Abort(if Truthy(Field(step, "width")) && Truthy(Field(step, "height")) then UnboundSize else NoSize)
  {
  }

  /** A `sleep` instruction line compiles to a step whose duration is NaN, so running it throws. */
  lemma SleepInstructionFails(digits: string, st: State, out: Outcome, env: Env)
    requires digits != "" && AllDigits(digits)
    ensures ExecStep(ClassifyLine("sleep" + " " + digits), st, out, env) == Abort(NoDuration)
  {
    assert ClassifyLine("sleep" + " " + digits) == SleepStep() by {
      SleepLineDurationLost(digits);
    }
    SleepStepFails(st, out, env);
  }

  lemma SleepStepFails(st: State, out: Outcome, env: Env)
    ensures ExecStep(SleepStep(), st, out, env) == Abort(NoDuration)
  {
  }

  /** A sleep step with a duration completes whatever its effect, changing nothing but the count. */
  lemma SleepAlwaysCompletes(step: Step, st: State, out1: Outcome, out2: Outcome, env: Env)
    requires KindOfStep(step) == Some(Sleep) && Truthy(Field(step, "duration"))
    ensures ExecStep(step, st, out1, env) == Advance(st.(done := st.done + 1))
    ensures ExecStep(step, st, out1, env) == ExecStep(step, st, out2, env)
  {
  }

  /** The `response` handler applied to a state: route one event with the rules registered so far. */
  function Deliver(st: State, ev: ResponseEvent): (r: State)
    ensures r.rules == st.rules && r.done == st.done
    ensures r.output.extractions == st.output.extractions && r.output.evaluations == st.output.evaluations
  {
    st.(output := OnResponse(st.rules, st.output, ev))
  }

  /**
   * Responses arrive concurrently with the steps. Around any step other than
   * `capture`, it does not matter whether a response is routed before or after it.
   */
  lemma ResponseCommutes(step: Step, st: State, out: Outcome, env: Env, ev: ResponseEvent)
    requires KindOfStep(step) != Some(Capture)
    ensures match ExecStep(step, st, out, env)
      case Advance(next) => ExecStep(step, Deliver(st, ev), out, env) == Advance(Deliver(next, ev))
      case other => ExecStep(step, Deliver(st, ev), out, env) == other
  {
    match KindOfStep(step)
    case None =>
    case Some(k) =>
      if !LogThrows(step, k) {
        var prepared := Prepare(k, step, env);
        if prepared.Ok? {
          ProceedCommutes(prepared.value, out, st, ev);
        }
      }
  }

  /** The effecting half of every handler but `capture` leaves the routing of a response unchanged. */
  lemma ApplyCommutes(plan: Plan, out: Outcome, st: State, ev: ResponseEvent)
    requires WellFormed(plan) && !plan.Watch?
    ensures match Apply(plan, out, st)
      case Ok(next) => Apply(plan, out, Deliver(st, ev)) == Ok(Deliver(next, ev))
      case Err(e) => Apply(plan, out, Deliver(st, ev)) == Err(e)
  {
  }

  /** Lifted to a whole step after validation: counting commutes with routing as well. */
  lemma ProceedCommutes(plan: Plan, out: Outcome, st: State, ev: ResponseEvent)
    requires WellFormed(plan) && !plan.Watch?
    ensures match Proceed(Ok(plan), out, st)
      case Advance(next) => Proceed(Ok(plan), out, Deliver(st, ev)) == Advance(Deliver(next, ev))
      case other => Proceed(Ok(plan), out, Deliver(st, ev)) == other
  {
    var routed := Deliver(st, ev);
    match Apply(plan, out, st)
    case Err(e) =>
      assert Apply(plan, out, routed) == Err(e) by {
        ApplyCommutes(plan, out, st, ev);
      }
      ProceedStops(plan, out, st, e);
      ProceedStops(plan, out, routed, e);
    case Ok(next) =>
      assert Apply(plan, out, routed) == Ok(Deliver(next, ev)) by {
        ApplyCommutes(plan, out, st, ev);
      }
      ProceedCounts(plan, out, st, next);
      ProceedCounts(plan, out, routed, Deliver(next, ev));
      DeliverKeepsCount(next, ev);
  }

  /** Routing a response and counting a step touch different parts of the state. */
  lemma DeliverKeepsCount(st: State, ev: ResponseEvent)
    ensures Deliver(st, ev).(done := st.done + 1) == Deliver(st.(done := st.done + 1), ev)
  {
  }

  lemma ProceedStops(plan: Plan, out: Outcome, st: State, e: Failure)
    requires WellFormed(plan) && Apply(plan, out, st) == Err(e)
    ensures Proceed(Ok(plan), out, st) == Abort(e)
  {
  }

  lemma ProceedCounts(plan: Plan, out: Outcome, st: State, next: State)
    requires WellFormed(plan) && Apply(plan, out, st) == Ok(next)
    ensures Proceed(Ok(plan), out, st) == Advance(next.(done := next.done + 1))
  {
  }

  /**
   * A completed `capture` step appends its rule; from then on a response
   * whose URL contains the pattern, and that no earlier rule matched, is
   * routed by the new rule, while earlier matches keep their rule.
   */
  lemma CaptureArmsRouting(step: Step, st: State, out: Outcome, env: Env, url: string)
    requires KindOfStep(step) == Some(Capture) && ExecStep(step, st, out, env).Advance?
    ensures var next := ExecStep(step, st, out, env).state;
      && Field(step, "url").Str?
      && next.rules == st.rules + [CaptureRule(Field(step, "url").s,
                                               Truthy(Field(step, "download")), Truthy(Field(step, "pretty")))]
      && (FindRule(st.rules, url).Some? ==> FindRule(next.rules, url) == FindRule(st.rules, url))
      && (FindRule(st.rules, url).None? && Contains(url, Field(step, "url").s) ==>
            FindRule(next.rules, url) == Some(|st.rules|))
  {
    var next := ExecStep(step, st, out, env).state;
    var rule := CaptureRule(Field(step, "url").s, Truthy(Field(step, "download")), Truthy(Field(step, "pretty")));
    assert next.rules == st.rules + [rule];
    if FindRule(st.rules, url).Some? {
      FindRuleStable(st.rules, rule, url);
    } else if Contains(url, rule.url) {
      assert next.rules[|st.rules|] == rule;
    }
  }
}

=== FILE: interpolation.dfy ===
/**
 * `%NAME%` placeholder substitution, as `value.replace(/\%(\w+)\%/g, ...)`
 * with a callback that throws when the environment value is unset or empty.
 */
module Interpolation {
  import opened Wrappers
  import opened Text
  import opened Errors

  /** Process environment: variable name to value. */
  type Env = map<string, string>

  /** A placeholder name: one or more word characters. */
  predicate IsName(name: string) {
    |name| >= 1 && AllWord(name)
  }

  /** The callback accepts a name only when its value is set and non-empty. */
  predicate Usable(env: Env, name: string) {
    name in env && env[name] != ""
  }

  /** Length of the `%\w+%` match anchored at the start of `s`; 0 when there is none. */
  function PlaceholderLen(s: string): (n: nat)
    ensures n == 0 || (3 <= n <= |s| && s[0] == '%' && s[n - 1] == '%' && IsName(s[1..n - 1]))
    ensures |s| > 0 && s[0] != '%' ==> n == 0
  {
    if |s| >= 3 && s[0] == '%' then
      var w := WordRun(s[1..]);
      if w >= 1 && 1 + w < |s| && s[1 + w] == '%' then w + 2 else 0
    else 0
  }

  /** A placeholder-shaped text starts at index `i`. */
  predicate PlaceholderAt(s: string, i: int) {
    0 <= i < |s| && PlaceholderLen(s[i..]) > 0
  }

  /** The name inside the placeholder at index `i`. */
  function NameAt(s: string, i: int): string
    requires PlaceholderAt(s, i)
  {
    s[i + 1..i + PlaceholderLen(s[i..]) - 1]
  }

  /** A placeholder found in a suffix of `s` is a placeholder of `s` with the same name. */
  lemma ShiftPlaceholder(s: string, k: nat, i: int)
    requires k <= |s| && PlaceholderAt(s[k..], i)
    ensures PlaceholderAt(s, k + i) && NameAt(s, k + i) == NameAt(s[k..], i)
  {
    assert s[k..][i..] == s[k + i..];
  }

  /** Prefix a successful result with `p`; errors pass through. */
  function Prefixed(p: string, r: Result<string, Failure>): Result<string, Failure> {
    match r
    case Ok(t) => Ok(p + t)
    case Err(e) => Err(e)
  }

  /**
   * One left-to-right pass: each placeholder met by the scan is replaced by its
   * value and the scan resumes after it, so inserted text is never rescanned.
   * The only error is a missing variable, named by a placeholder name.
   */
  function Interpolate(s: string, env: Env): (r: Result<string, Failure>)
    ensures r.Err? ==> r.error.EnvMissing? && !Usable(env, r.error.name) && IsName(r.error.name)
    decreases |s|
  {
    if |s| == 0 then Ok("")
    else
      var n := PlaceholderLen(s);
      if n > 0 then
        var name := s[1..n - 1];
        if !Usable(env, name) then Err(EnvMissing(name))
        else Prefixed(env[name], Interpolate(s[n..], env))
      else Prefixed([s[0]], Interpolate(s[1..], env))
  }

  /** The variable an error names is the name of a placeholder in the text. */
  lemma {:induction false} ErrorNamesPlaceholder(s: string, env: Env)
    requires Interpolate(s, env).Err?
    ensures exists i :: PlaceholderAt(s, i) && NameAt(s, i) == Interpolate(s, env).error.name
    decreases |s|
  {
    var n := PlaceholderLen(s);
    var e := Interpolate(s, env).error;
    if n > 0 && !Usable(env, s[1..n - 1]) {
      assert PlaceholderAt(s, 0) && NameAt(s, 0) == e.name;
    } else {
      var k := if n > 0 then n else 1;
      assert Interpolate(s[k..], env) == Err(e) by {
        if n > 0 {
          assert Interpolate(s, env) == Prefixed(env[s[1..n - 1]], Interpolate(s[k..], env));
        } else {
          assert Interpolate(s, env) == Prefixed([s[0]], Interpolate(s[k..], env));
        }
      }
      var i :| PlaceholderAt(s[k..], i) && NameAt(s[k..], i) == e.name by {
        ErrorNamesPlaceholder(s[k..], env);
      }
      ShiftPlaceholder(s, k, i);
    }
  }

  /** Text with no placeholder-shaped part is returned unchanged. */
  lemma {:induction false} NoPlaceholderUnchanged(s: string, env: Env)
    requires forall i :: !PlaceholderAt(s, i)
    ensures Interpolate(s, env) == Ok(s)
    decreases |s|
  {
    if |s| > 0 {
      assert !PlaceholderAt(s, 0);
      forall i | PlaceholderAt(s[1..], i) ensures PlaceholderAt(s, 1 + i) {
        ShiftPlaceholder(s, 1, i);
      }
      NoPlaceholderUnchanged(s[1..], env);
      assert [s[0]] + s[1..] == s;
    }
  }

  /** When every placeholder-shaped part names a usable variable, substitution succeeds. */
  lemma {:induction false} AllUsableSucceeds(s: string, env: Env)
    requires forall i :: PlaceholderAt(s, i) ==> Usable(env, NameAt(s, i))
    ensures Interpolate(s, env).Ok?
    decreases |s|
  {
    if |s| > 0 {
      var n := PlaceholderLen(s);
      var k := if n > 0 then n else 1;
      if n > 0 {
        assert PlaceholderAt(s, 0);
      }
      forall i | PlaceholderAt(s[k..], i) ensures Usable(env, NameAt(s[k..], i)) {
        ShiftPlaceholder(s, k, i);
      }
      AllUsableSucceeds(s[k..], env);
    }
  }

  /** The placeholder text `%name%`. */
  function Placeholder(name: string): string {
    "%" + name + "%"
  }

  /** `%name%` at the start of a text is a placeholder spanning exactly those characters. */
  lemma LeadingPlaceholder(name: string, rest: string)
    requires IsName(name)
    ensures PlaceholderLen(Placeholder(name) + rest) == |name| + 2
    ensures (Placeholder(name) + rest)[1..|name| + 1] == name
    ensures (Placeholder(name) + rest)[|name| + 2..] == rest
  {
    var s := Placeholder(name) + rest;
    assert s[1..] == name + "%" + rest;
    assert s[1..][|name|] == '%';
    assert forall j :: 0 <= j < |name| ==> s[1..][j] == name[j];
    assert WordRun(s[1..]) == |name|;
  }

  /**
   * The scan copies a character that opens no placeholder and moves on; this
   * includes a `%` not followed by a name and a closing `%`, as in `%%TOKEN%`.
   */
  lemma LeadingLiteral(c: char, t: string, env: Env)
    requires PlaceholderLen([c] + t) == 0
    ensures Interpolate([c] + t, env) == Prefixed([c], Interpolate(t, env))
  {
    assert ([c] + t)[1..] == t;
  }

  /** A placeholder at the start is replaced and the scan resumes after it. */
  lemma LeadingSubstitution(name: string, rest: string, env: Env)
    requires IsName(name)
    ensures Interpolate(Placeholder(name) + rest, env)
            == if Usable(env, name) then Prefixed(env[name], Interpolate(rest, env))
               else Err(EnvMissing(name))
  {
    LeadingPlaceholder(name, rest);
  }

  /**
   * A placeholder after placeholder-free text is replaced by its value and the
   * scan continues with the text after it; an unusable name is the error.
   */
  lemma {:induction false} SubstituteOne(lit: string, name: string, rest: string, env: Env)
    requires '%' !in lit
    requires IsName(name)
    ensures Interpolate(lit + Placeholder(name) + rest, env)
            == if Usable(env, name) then Prefixed(lit + env[name], Interpolate(rest, env))
               else Err(EnvMissing(name))
    decreases |lit|
  {
    var p := Placeholder(name);
    if |lit| == 0 {
      assert lit + p + rest == p + rest;
      LeadingSubstitution(name, rest, env);
      if Usable(env, name) {
        assert lit + env[name] == env[name];
      }
    } else {
      var c, more := lit[0], lit[1..];
      var r := Interpolate(rest, env);
      assert Interpolate(lit + p + rest, env) == Prefixed([c], Interpolate(more + p + rest, env)) by {
        assert lit + p + rest == [c] + (more + p + rest) by {
          assert lit == [c] + more;
          Assoc([c] + more, p, rest);
          Assoc([c], more, p + rest);
          Assoc(more, p, rest);
        }
        assert PlaceholderLen([c] + (more + p + rest)) == 0;
        LeadingLiteral(c, more + p + rest, env);
      }
      assert Interpolate(more + p + rest, env)
             == if Usable(env, name) then Prefixed(more + env[name], r) else Err(EnvMissing(name)) by {
        assert '%' !in more by {
          assert forall i :: 0 <= i < |more| ==> more[i] == lit[i + 1];
        }
        SubstituteOne(more, name, rest, env);
      }
      if Usable(env, name) {
        assert Prefixed([c], Prefixed(more + env[name], r)) == Prefixed(lit + env[name], r) by {
          PrefixedTwice([c], more + env[name], r);
          assert [c] + (more + env[name]) == lit + env[name] by {
            assert lit == [c] + more;
          }
        }
      }
    }
  }

  lemma PrefixedTwice(p: string, q: string, r: Result<string, Failure>)
    ensures Prefixed(p, Prefixed(q, r)) == Prefixed(p + q, r)
  {
    if r.Ok? {
      assert p + (q + r.value) == (p + q) + r.value;
    }
  }

  /** `%TOKEN%` becomes the value of TOKEN when set, and is an error naming TOKEN when unset. */
  lemma TokenExample(env: Env)
    ensures "TOKEN" in env && env["TOKEN"] == "abc" ==> Interpolate("%TOKEN%", env) == Ok("abc")
    ensures "TOKEN" !in env ==> Interpolate("%TOKEN%", env) == Err(EnvMissing("TOKEN"))
  {
    var token := "TOKEN";
    assert IsName(token);
    LeadingSubstitution(token, "", env);
    assert Placeholder(token) + "" == "%TOKEN%";
    assert Interpolate("", env) == Ok("");
    if token in env { assert env[token] + "" == env[token]; }
  }
}

=== FILE: network.dfy ===
/**
 * Network-capture routing: the `response` handler matches each response
 * against the registered capture rules and files it into the document,
 * either inline or as the name of a downloaded file. Reading the body and
 * writing the file are outside the model; the body is given with the event.
 */
module Network {
  import opened Wrappers
  import opened Text
  import opened Values
  import opened Output

  /** A registered `capture` step: the URL fragment to look for and how to route matches. */
  datatype CaptureRule = CaptureRule(url: string, download: bool, pretty: bool)

  /**
   * One observed response; `data` is the body as read, null when reading
   * failed. `diskAccepts` says whether the file system would accept writing a
   * download file (the `downloads` directory exists and is writable).
   */
  datatype ResponseEvent = ResponseEvent(
    url: string, status: int, headers: map<string, string>, data: Value, diskAccepts: bool)

  /**
   * `captures.find(step => url.includes(step.url))`: the index of the first
   * registered rule whose fragment occurs in the URL, none if no rule does.
   */
  function FindRule(rules: seq<CaptureRule>, url: string): (r: Option<nat>)
    ensures r.Some? ==> r.value < |rules| && Contains(url, rules[r.value].url)
    ensures r.Some? ==> forall j :: 0 <= j < r.value ==> !Contains(url, rules[j].url)
    ensures r.None? <==> forall j :: 0 <= j < |rules| ==> !Contains(url, rules[j].url)
  {
    if |rules| == 0 then None
    else if Contains(url, rules[0].url) then Some(0)
    else
      var rest := FindRule(rules[1..], url);
      assert forall j :: 1 <= j < |rules| ==> rules[1..][j - 1] == rules[j];
      match rest
      case Some(k) => Some(k + 1)
      case None => None
  }

  /** Registering another rule never changes which rule an already matched URL selects. */
  lemma {:induction false} FindRuleStable(rules: seq<CaptureRule>, extra: CaptureRule, url: string)
    requires FindRule(rules, url).Some?
    ensures FindRule(rules + [extra], url) == FindRule(rules, url)
    decreases |rules|
  {
    assert (rules + [extra])[0] == rules[0];
    if !Contains(url, rules[0].url) {
      assert (rules + [extra])[1..] == rules[1..] + [extra];
      FindRuleStable(rules[1..], extra, url);
    }
  }

  /** `[\w.-]`: the characters a download name keeps. */
  predicate SafeChar(c: char) {
    IsWordChar(c) || c == '.' || c == '-'
  }

  predicate AllSafe(s: string) {
    forall i :: 0 <= i < |s| ==> SafeChar(s[i])
  }

  /** `replace(/^\w+\:\/\/[^\/]+\//, '')`: drop `scheme://host/` when the URL starts with it. */
  function StripOrigin(url: string): string {
    var w := WordRun(url);
    if w >= 1 && url[w..] != "" && "://" <= url[w..] then StripHost(url, url[w + 3..]) else url
  }

  /** After `scheme://`: drop a non-empty host and its `/`, or keep the whole URL. */
  function StripHost(url: string, tail: string): string {
    if '/' in tail then
      var h := FirstIndex(tail, '/');
      if h >= 1 then tail[h + 1..] else url
    else url
  }

  /** The origin of a URL written `scheme://host/path` is dropped, leaving the path. */
  lemma StripOriginOfUrl(scheme: string, host: string, path: string)
    requires IsWordRunOf(scheme) && host != "" && '/' !in host
    ensures StripOrigin(scheme + "://" + host + "/" + path) == path
  {
    var url := scheme + "://" + host + "/" + path;
    var tail := host + "/" + path;
    assert url == scheme + ("://" + tail) by {
      Assoc(scheme + "://", host, "/");
      Assoc(scheme + "://", host + "/", path);
      Assoc(scheme, "://", tail);
    }
    assert WordRun(url) == |scheme| by {
      assert forall i :: 0 <= i < |scheme| ==> url[i] == scheme[i];
      assert url[|scheme|] == ':';
    }
    assert url[|scheme|..] == "://" + tail;
    assert FirstIndex(tail, '/') == |host| && tail[|host| + 1..] == path by {
      assert tail[|host|] == '/';
      assert tail[..|host|] == host;
    }
    StripOriginAt(url, |scheme|, tail, |host|);
  }

  /** The steps of `StripOrigin` once the scheme length and the host length are known. */
  lemma StripOriginAt(url: string, w: nat, tail: string, h: nat)
    requires WordRun(url) == w && w >= 1 && w <= |url| && url[w..] == "://" + tail
    requires h < |tail| && tail[h] == '/' && FirstIndex(tail, '/') == h && h >= 1
    ensures StripOrigin(url) == tail[h + 1..]
  {
    var rest := url[w..];
    assert rest != "" && "://" <= rest by {
      assert rest[..3] == "://";
    }
    assert url[w + 3..] == tail by {
      assert url[w + 3..] == rest[3..];
    }
    assert StripHost(url, tail) == tail[h + 1..] by {
      assert '/' in tail;
    }
  }

  predicate IsWordRunOf(scheme: string) {
    scheme != "" && AllWord(scheme)
  }

  /** `replace(/\/$/, '')`: drop one trailing slash. */
  function DropTrailingSlash(s: string): string {
    if |s| > 0 && s[|s| - 1] == '/' then s[..|s| - 1] else s
  }

  /** Length of the leading run of characters a download name does not keep. */
  function UnsafeRun(s: string): (k: nat)
    ensures k <= |s|
    ensures forall i :: 0 <= i < k ==> !SafeChar(s[i])
    ensures k == |s| || SafeChar(s[k])
  {
    if |s| > 0 && !SafeChar(s[0]) then 1 + UnsafeRun(s[1..]) else 0
  }

  /**
   * `replace(/[^\w\-\.]+/g, '_')`: every maximal run of other characters
   * becomes one `_`. The result holds only kept characters, and a text that
   * already does is left unchanged.
   */
  function Sanitize(s: string): (r: string)
    ensures AllSafe(r)
    ensures |r| <= |s|
    ensures AllSafe(s) ==> r == s
    decreases |s|
  {
    if |s| == 0 then ""
    else if SafeChar(s[0]) then [s[0]] + Sanitize(s[1..])
    else "_" + Sanitize(s[UnsafeRun(s)..])
  }

  /** Sanitising changes a text exactly when it holds a character outside `[\w.-]`. */
  lemma SanitizeFixedPoint(s: string)
    ensures Sanitize(s) == s <==> AllSafe(s)
  {
  }

  /** A run of unwanted characters followed by a kept one (or the end) is measured exactly. */
  lemma {:induction false} UnsafeRunOf(u: string, c: string)
    requires forall i :: 0 <= i < |u| ==> !SafeChar(u[i])
    requires c == "" || SafeChar(c[0])
    ensures UnsafeRun(u + c) == |u|
    decreases |u|
  {
    if |u| > 0 {
      assert (u + c)[0] == u[0];
      assert (u + c)[1..] == u[1..] + c;
      UnsafeRunOf(u[1..], c);
    } else {
      assert u + c == c;
    }
  }

  /**
   * The replacement works run by run: kept characters are copied, and each
   * maximal run of other characters becomes exactly one `_`.
   */
  lemma {:induction false} SanitizeRun(a: string, u: string, c: string)
    requires AllSafe(a)
    requires |u| >= 1 && forall i :: 0 <= i < |u| ==> !SafeChar(u[i])
    requires c == "" || SafeChar(c[0])
    ensures Sanitize(a + u + c) == a + "_" + Sanitize(c)
    decreases |a|
  {
    if |a| == 0 {
      assert a + u + c == u + c;
      SanitizeUnsafeRun(u, c);
    } else {
      var rest := a[1..] + u + c;
      var sc := Sanitize(c);
      assert a + u + c == [a[0]] + rest by {
        HeadSplit(a, u + c, "");
      }
      assert Sanitize([a[0]] + rest) == [a[0]] + Sanitize(rest) by {
        SanitizeSafeHead(a[0], rest);
      }
      assert Sanitize(rest) == a[1..] + "_" + sc by {
        assert AllSafe(a[1..]) by {
          assert forall i :: 0 <= i < |a[1..]| ==> a[1..][i] == a[i + 1];
        }
        SanitizeRun(a[1..], u, c);
      }
      HeadSplit(a, "_", sc);
    }
  }

  /** Splitting off the first character commutes with appending. */
  lemma HeadSplit(a: string, x: string, y: string)
    requires |a| > 0
    ensures a + x + y == [a[0]] + (a[1..] + x + y)
  {
    assert a == [a[0]] + a[1..];
  }

  lemma SanitizeSafeHead(x: char, rest: string)
    requires SafeChar(x)
    ensures Sanitize([x] + rest) == [x] + Sanitize(rest)
  {
    assert ([x] + rest)[1..] == rest;
  }

  lemma SanitizeUnsafeRun(u: string, c: string)
    requires |u| >= 1 && forall i :: 0 <= i < |u| ==> !SafeChar(u[i])
    requires c == "" || SafeChar(c[0])
    ensures Sanitize(u + c) == "_" + Sanitize(c)
  {
    assert !SafeChar((u + c)[0]);
    UnsafeRunOf(u, c);
    assert (u + c)[|u|..] == c;
  }

  /** Lower-casing keeps the kept-character class. */
  lemma LowerKeepsSafe(s: string)
    requires AllSafe(s)
    ensures AllSafe(LowerAll(s))
  {
    forall i | 0 <= i < |s| ensures SafeChar(LowerAll(s)[i]) {
      assert LowerAll(s)[i] == Lower(s[i]);
    }
  }

  /**
   * The file stem derived from a URL: origin and one trailing slash dropped,
   * other characters collapsed to `_`, lower-cased. Only `[a-z0-9_.-]` remains,
   * so the stem is never a path.
   */
  function Stem(url: string): (r: string)
    ensures AllSafe(r) && '/' !in r
    ensures forall i :: 0 <= i < |r| ==> !('A' <= r[i] <= 'Z')
  {
    var s := Sanitize(DropTrailingSlash(StripOrigin(url)));
    LowerKeepsSafe(s);
    LowerAll(s)
  }

  /** The stem of a URL written `scheme://host/path` depends on its path alone. */
  lemma StemOfUrlPath(url: string, scheme: string, host: string, path: string)
    requires IsWordRunOf(scheme) && host != "" && '/' !in host
    requires url == scheme + "://" + host + "/" + path
    ensures Stem(url) == LowerAll(Sanitize(DropTrailingSlash(path)))
  {
    StripOriginOfUrl(scheme, host, path);
  }

  /** A URL whose path is already made of kept characters yields that path, lower-cased. */
  lemma StemOfPath(scheme: string, host: string, path: string)
    requires IsWordRunOf(scheme) && host != "" && '/' !in host && AllSafe(path)
    ensures Stem(scheme + "://" + host + "/" + path) == LowerAll(path)
  {
    assert DropTrailingSlash(path) == path by {
      assert path == "" || SafeChar(path[|path| - 1]);
    }
    StemOfUrlPath(scheme + "://" + host + "/" + path, scheme, host, path);
  }

  /** One trailing slash after such a path is dropped before the stem is formed. */
  lemma StemOfPathSlash(scheme: string, host: string, path: string)
    requires IsWordRunOf(scheme) && host != "" && '/' !in host && AllSafe(path)
    ensures Stem(scheme + "://" + host + "/" + path + "/") == LowerAll(path)
  {
    assert DropTrailingSlash(path + "/") == path by {
      assert (path + "/")[..|path|] == path;
    }
    StemOfUrlPath(scheme + "://" + host + "/" + path + "/", scheme, host, path + "/");
  }

  /**
   * Two clean path segments joined by `/` give one stem joined by `_`: the
   * slash is the run of unwanted characters between them.
   */
  lemma StemJoinsSegments(scheme: string, host: string, p: string, q: string)
    requires IsWordRunOf(scheme) && host != "" && '/' !in host
    requires AllSafe(p) && AllSafe(q) && q != ""
    ensures Stem(scheme + "://" + host + "/" + p + "/" + q) == LowerAll(p + "_" + q)
  {
    var path := p + "/" + q;
    SanitizeJoin(p, q);
    assert scheme + "://" + host + "/" + p + "/" + q == scheme + "://" + host + "/" + path by {
      var x := scheme + "://" + host + "/";
      Assoc(x + p, "/", q);
      Assoc(x, p, "/" + q);
      Assoc(p, "/", q);
    }
    StemOfUrlPath(scheme + "://" + host + "/" + p + "/" + q, scheme, host, path);
  }

  lemma SanitizeJoin(p: string, q: string)
    requires AllSafe(p) && AllSafe(q) && q != ""
    ensures Sanitize(DropTrailingSlash(p + "/" + q)) == p + "_" + q
  {
    var path := p + "/" + q;
    assert DropTrailingSlash(path) == path by {
      assert path[|path| - 1] == q[|q| - 1];
    }
    assert !SafeChar('/') && SafeChar(q[0]);
    SanitizeRun(p, "/", q);
  }

  /** `content-type.match(/^\w+\/(\w+)/)`: the subtype group of a content type. */
  function Subtype(ct: string): (r: Option<string>)
    ensures r.Some? ==> r.value != "" && AllWord(r.value)
  {
    var w := WordRun(ct);
    if w >= 1 && w < |ct| && ct[w] == '/' then
      var w2 := WordRun(ct[w + 1..]);
      if w2 >= 1 then Some(ct[w + 1..w + 1 + w2]) else None
    else None
  }

  /** `type/subtype` followed by a non-word character (or nothing) gives the subtype. */
  lemma SubtypeOf(kind: string, sub: string, rest: string)
    requires |kind| >= 1 && AllWord(kind) && |sub| >= 1 && AllWord(sub)
    requires rest == "" || !IsWordChar(rest[0])
    ensures Subtype(kind + "/" + sub + rest) == Some(sub)
  {
    var ct := kind + "/" + sub + rest;
    assert forall i :: 0 <= i < |kind| ==> ct[i] == kind[i];
    assert ct[|kind|] == '/' && !IsWordChar('/');
    assert WordRun(ct) == |kind|;
    var tail := ct[|kind| + 1..];
    assert tail == sub + rest;
    assert forall i :: 0 <= i < |sub| ==> tail[i] == sub[i];
    assert |tail| == |sub| || !IsWordChar(tail[|sub|]);
    assert WordRun(tail) == |sub|;
    assert tail[..|sub|] == sub;
  }

  /**
   * `ct` reads as a type, a slash, the subtype `sub`, then text that does not
   * continue the subtype: the shape `/^\w+\/(\w+)/` matches.
   */
  predicate SubtypeSplit(ct: string, kind: string, sub: string, rest: string) {
    && |kind| >= 1 && AllWord(kind) && |sub| >= 1 && AllWord(sub)
    && (rest == "" || !IsWordChar(rest[0]))
    && ct == kind + "/" + sub + rest
  }

  /** The subtype is found exactly when the content type has that shape around it. */
  lemma SubtypeExact(ct: string, sub: string)
    ensures Subtype(ct) == Some(sub) <==> exists kind, rest :: SubtypeSplit(ct, kind, sub, rest)
  {
    if Subtype(ct) == Some(sub) {
      var w := WordRun(ct);
      SubtypeWitness(ct, w, WordRun(ct[w + 1..]));
    }
    if exists kind, rest :: SubtypeSplit(ct, kind, sub, rest) {
      var kind, rest :| SubtypeSplit(ct, kind, sub, rest);
      SubtypeOf(kind, sub, rest);
    }
  }

  /** The pieces the scan of `Subtype` passes over form a split of the content type. */
  lemma SubtypeWitness(ct: string, w: nat, w2: nat)
    requires w == WordRun(ct) && w >= 1 && w < |ct| && ct[w] == '/'
    requires w2 == WordRun(ct[w + 1..]) && w2 >= 1
    ensures SubtypeSplit(ct, ct[..w], ct[w + 1..w + 1 + w2], ct[w + 1 + w2..])
  {
    assert AllWord(ct[..w]) by {
      WordRunSplit(ct);
    }
    var rest := ct[w + 1 + w2..];
    assert AllWord(ct[w + 1..w + 1 + w2]) && (rest == "" || !IsWordChar(rest[0])) by {
      var tail := ct[w + 1..];
      assert tail[..w2] == ct[w + 1..w + 1 + w2] && tail[w2..] == rest;
      WordRunSplit(tail);
    }
    SlashSplit(ct, w, w + 1 + w2);
  }

  /** Cutting around the slash at `w` and at `j` rebuilds the text. */
  lemma SlashSplit(ct: string, w: nat, j: nat)
    requires w < j <= |ct| && ct[w] == '/'
    ensures ct == ct[..w] + "/" + ct[w + 1..j] + ct[j..]
  {
    assert ct[w + 1..] == ct[w + 1..j] + ct[j..];
    assert ct[w..] == "/" + ct[w + 1..];
    assert ct == ct[..w] + ct[w..];
  }

  /** No subtype is found exactly when the content type has no such shape at all. */
  lemma SubtypeNone(ct: string)
    ensures Subtype(ct).None? <==> forall kind, sub, rest :: !SubtypeSplit(ct, kind, sub, rest)
  {
    if Subtype(ct).Some? {
      SubtypeExact(ct, Subtype(ct).value);
    } else {
      forall kind, sub, rest | SubtypeSplit(ct, kind, sub, rest)
        ensures false
      {
        SubtypeOf(kind, sub, rest);
      }
    }
  }

  /** `/\.\w+$/`: the text ends in a dot and one or more word characters. */
  predicate HasExtension(file: string) {
    var k := TrailingWordRun(file);
    k >= 1 && k < |file| && file[|file| - k - 1] == '.'
  }

  /** Node's `path.basename` for POSIX paths: the last component, trailing slashes ignored. */
  function Basename(path: string): string {
    var q := DropSlashes(path);
    if '/' in q then q[LastIndex(q, '/') + 1..] else q
  }

  function DropSlashes(s: string): (r: string)
    ensures |r| <= |s| && r == s[..|r|] && (r == "" || r[|r| - 1] != '/')
  {
    if |s| > 0 && s[|s| - 1] == '/' then DropSlashes(s[..|s| - 1]) else s
  }

  /** Under the downloads directory, the base name of a slash-free name is the name itself. */
  lemma BasenameInDownloads(name: string)
    requires '/' !in name
    ensures Basename("downloads/" + name) == if name == "" then "downloads" else name
  {
    var p := "downloads/" + name;
    if name == "" {
      assert p == "downloads/";
      assert DropSlashes(p) == "downloads" by {
        assert p[..|p| - 1] == "downloads";
        assert "downloads"[8] != '/';
      }
      assert '/' !in "downloads" by {
        assert forall i :: 0 <= i < 9 ==> "downloads"[i] != '/';
      }
    } else {
      assert DropSlashes(p) == p by {
        assert p[|p| - 1] == name[|name| - 1];
      }
      assert p[9] == '/';
      assert LastIndex(p, '/') == 9 by {
        assert p[10..] == name;
      }
      assert p[10..] == name;
    }
  }

  /** The content type of a response, "" when the header is absent. */
  function ContentType(headers: map<string, string>): string {
    if "content-type" in headers then headers["content-type"] else ""
  }

  /** The `.subtype` suffix, added only when the path has no extension and the type gives one. */
  function Extension(file: string, headers: map<string, string>): (r: string)
    ensures AllSafe(r)
    ensures HasExtension(file) ==> r == ""
    ensures !HasExtension(file) && Subtype(ContentType(headers)).Some? ==>
              r == "." + Subtype(ContentType(headers)).value
  {
    var ct := ContentType(headers);
    var sub := Subtype(ct);
    if !HasExtension(file) && ct != "" && sub.Some? then "." + sub.value else ""
  }

  /**
   * The name written under `downloads/`: the stem, with `.subtype` appended
   * only when the stem has no extension and the content type gives one. It
   * is always a name of kept characters without a `/`.
   */
  function DownloadFile(url: string, headers: map<string, string>): (f: string)
    ensures AllSafe(f) && '/' !in f
    ensures HasExtension("downloads/" + Stem(url)) ==> f == Stem(url)
    ensures !HasExtension("downloads/" + Stem(url)) && Subtype(ContentType(headers)).Some? ==>
              f == Stem(url) + "." + Subtype(ContentType(headers)).value
    ensures Subtype(ContentType(headers)).None? ==> f == Stem(url)
  {
    var stem := Stem(url);
    var ext := Extension("downloads/" + stem, headers);
    SafeConcat(stem, ext);
    var sub := Subtype(ContentType(headers));
    if sub.Some? && ext == "." + sub.value then
      Assoc(stem, ".", sub.value);
      stem + ext
    else
      assert ext == "";
      assert stem + ext == stem;
      stem + ext
  }

  /**
   * The `filename` recorded for a download: `basename` of the written path,
   * which is the written name itself unless that is empty.
   */
  function DownloadName(url: string, headers: map<string, string>): (r: string)
    ensures AllSafe(r) && '/' !in r
    ensures DownloadFile(url, headers) != "" ==> r == DownloadFile(url, headers)
    ensures DownloadFile(url, headers) == "" ==> r == "downloads"
    ensures Subtype(ContentType(headers)).None? ==> r == SavedName(Stem(url))
  {
    SavedName(DownloadFile(url, headers))
  }

  /** `basename('downloads/' + name)` for the name of a download. */
  function SavedName(name: string): (r: string)
    requires AllSafe(name)
    ensures AllSafe(r) && '/' !in r
    ensures r == if name == "" then "downloads" else name
  {
    BasenameInDownloads(name);
    DownloadsDirSafe();
    Basename("downloads/" + name)
  }

  lemma SafeConcat(a: string, b: string)
    requires AllSafe(a) && AllSafe(b)
    ensures AllSafe(a + b) && '/' !in a + b
  {
    assert forall i :: 0 <= i < |a + b| ==> (a + b)[i] == if i < |a| then a[i] else b[i - |a|];
  }

  lemma DownloadsDirSafe()
    ensures AllSafe("downloads")
  {
  }

  /** The downloads directory itself ends in `/`, so an extension must come from the stem. */
  lemma ExtensionNeedsStem(stem: string)
    ensures HasExtension("downloads/" + stem) ==> stem != ""
  {
    if stem == "" {
      var f := "downloads/" + stem;
      assert f[|f| - 1] == '/';
      assert TrailingWordRun(f) == 0;
    }
  }

  /** `writeFileSync` accepts the payload: a string, or an object it serialises first. */
  predicate Writable(data: Value) {
    data.Str? || data.Null? || data.List? || data.Object?
  }

  /** Names that make `downloads/` + name a directory rather than a file. */
  predicate DirectoryName(name: string) {
    name == "" || name == "." || name == ".."
  }

  /**
   * Writing the download file succeeds: the disk accepts it, the payload is
   * writable, and the path `downloads/` + name is a file, not a directory.
   */
  predicate Stored(ev: ResponseEvent) {
    ev.diskAccepts && Writable(ev.data) && !DirectoryName(DownloadFile(ev.url, ev.headers))
  }

  /**
   * The `response` handler on one event, as it affects `captures`. An
   * unmatched response changes nothing. A matched one creates the list if
   * needed and appends exactly one record at the end, holding the file name
   * for a download rule and the payload otherwise, except that a download
   * whose write throws ends the handler before the record is pushed.
   */
  function Route(rules: seq<CaptureRule>, captures: Option<seq<CaptureRecord>>, ev: ResponseEvent)
    : (r: Option<seq<CaptureRecord>>)
    ensures FindRule(rules, ev.url).None? ==> r == captures
    ensures FindRule(rules, ev.url).Some? ==>
      var rule := rules[FindRule(rules, ev.url).value];
      var appended := !rule.download || Stored(ev);
      && r.Some?
      && |r.value| == |Items(captures)| + (if appended then 1 else 0)
      && r.value[..|Items(captures)|] == Items(captures)
      && (appended ==>
            var rec := r.value[|Items(captures)|];
            && rec.url == ev.url && rec.status == ev.status && rec.headers == ev.headers
            && (rec.body.SavedAs? <==> rule.download)
            && (rec.body.Inline? ==> rec.body.response == ev.data)
            && (rec.body.SavedAs? ==> rec.body.filename == DownloadFile(ev.url, ev.headers)))
  {
    match FindRule(rules, ev.url)
    case None => captures
    case Some(k) =>
      if rules[k].download && !Stored(ev) then
        assert Items(captures)[..|Items(captures)|] == Items(captures);
        Some(Items(captures))
      else
        var body := if rules[k].download then SavedAs(DownloadName(ev.url, ev.headers)) else Inline(ev.data);
        Push(captures, CaptureRecord(ev.url, ev.status, ev.headers, body))
  }

  /** The handler on the whole document: only `captures` is ever touched. */
  function OnResponse(rules: seq<CaptureRule>, doc: Document, ev: ResponseEvent): Document {
    doc.(captures := Route(rules, doc.captures, ev))
  }
}

=== FILE: output.dfy ===
/**
 * The result document. Each list is absent until its first record and then
 * only grows at its end.
 */
module Output {
  import opened Wrappers
  import opened Values

  datatype Extraction = Extraction(prompt: Value, result: Value)
  datatype Evaluation = Evaluation(script: Value, result: Value)

  /** Where a captured payload went: a file in the downloads directory, or the record itself. */
  datatype Body = SavedAs(filename: string) | Inline(response: Value)

  datatype CaptureRecord = CaptureRecord(url: string, status: int, headers: map<string, string>, body: Body)

  datatype Document = Document(
    extractions: Option<seq<Extraction>>,
    evaluations: Option<seq<Evaluation>>,
    captures: Option<seq<CaptureRecord>>)

  /** The document before anything happened: every key absent. */
  const Empty := Document(None, None, None)

  /** The records of a list, none when the key is absent. */
  function Items<T>(list: Option<seq<T>>): seq<T> {
    if list.Some? then list.value else []
  }

  /** `if (!list) list = []; list.push(x)`: the key exists afterwards, ending in `x`. */
  function Push<T(==)>(list: Option<seq<T>>, x: T): (r: Option<seq<T>>)
    ensures r.Some? && |r.value| == |Items(list)| + 1
    ensures r.value[..|Items(list)|] == Items(list) && r.value[|Items(list)|] == x
  {
    Some(Items(list) + [x])
  }

  /** `b` is `a` with possibly more records appended (an absent list extends to anything). */
  predicate Extends<T(==)>(a: Option<seq<T>>, b: Option<seq<T>>) {
    a.None? || (b.Some? && a.value <= b.value)
  }
}

=== FILE: runner.dfy ===
/**
 * `runScript` and the job around it: the steps run in list order through a
 * step function, the first error ends the run, and unknown steps are passed
 * over without counting.
 */
module Runner {
  import opened Wrappers
  import opened Steps
  import opened Errors
  import opened Interpolation
  import opened Output
  import opened Compiler
  import opened Executor

  /** What running one step does, given the step, the state before it and its position in the list. */
  type StepFn = (Step, State, nat) -> StepResult

  /** A step function skips exactly the steps without a handler, and every completed step grows the state. */
  ghost predicate Lawful(exec: StepFn) {
    && (forall s, st, p :: exec(s, st, p).Skip? <==> KindOfStep(s).None?)
    && (forall s, st, p :: exec(s, st, p).Advance? ==> Grows(st, exec(s, st, p).state))
  }

  /** The number of steps that have a handler. */
  function CountKnown(steps: seq<Step>): (n: nat)
    ensures n <= |steps|
  {
    if |steps| == 0 then 0
    else (if KindOfStep(steps[0]).Some? then 1 else 0) + CountKnown(steps[1..])
  }

  /**
   * How far a run got: the final state, the error that ended it (none when
   * every step ran), and the `stepIdx` value after each completed step, which
   * the progress report divides by the number of steps.
   */
  datatype RunResult = RunResult(state: State, failure: Option<Failure>, reports: seq<nat>)

  /**
   * The loop from position `pos` on: the steps run in order, a skipped step
   * does not count, and the first error ends the run with the state it found.
   */
  function Loop(steps: seq<Step>, st: State, pos: nat, exec: StepFn): (r: RunResult)
    requires Lawful(exec)
    decreases |steps|
    ensures r.state.done == st.done + |r.reports|
    ensures forall i :: 0 <= i < |r.reports| ==> r.reports[i] == st.done + i + 1
    ensures |r.reports| <= CountKnown(steps)
    ensures r.failure.None? ==> |r.reports| == CountKnown(steps)
    ensures r.state.output.captures == st.output.captures
    ensures Extends(st.output.extractions, r.state.output.extractions)
    ensures Extends(st.output.evaluations, r.state.output.evaluations)
    ensures st.rules <= r.state.rules
  {
    if |steps| == 0 then RunResult(st, None, [])
    else
      match exec(steps[0], st, pos)
      case Skip => Loop(steps[1..], st, pos + 1, exec)
      case Abort(e) => RunResult(st, Some(e), [])
      case Advance(next) =>
        var rest := Loop(steps[1..], next, pos + 1, exec);
        RunResult(rest.state, rest.failure, [next.done] + rest.reports)
  }

  /**
   * The first error ends the run: the run reports exactly that error, the
   * state the failing step found, and no further progress.
   */
  lemma LoopAborts(steps: seq<Step>, st: State, pos: nat, exec: StepFn)
    requires Lawful(exec) && |steps| > 0 && exec(steps[0], st, pos).Abort?
    ensures Loop(steps, st, pos, exec) == RunResult(st, Some(exec(steps[0], st, pos).failure), [])
  {
  }

  /** A skipped step leaves the run to the steps after it, with the same state. */
  lemma LoopSkips(steps: seq<Step>, st: State, pos: nat, exec: StepFn)
    requires Lawful(exec) && |steps| > 0 && KindOfStep(steps[0]).None?
    ensures Loop(steps, st, pos, exec) == Loop(steps[1..], st, pos + 1, exec)
  {
  }

  /** A completed step reports its count and hands its state to the steps after it. */
  lemma LoopAdvances(steps: seq<Step>, st: State, pos: nat, exec: StepFn)
    requires Lawful(exec) && |steps| > 0 && exec(steps[0], st, pos).Advance?
    ensures var next := exec(steps[0], st, pos).state;
            var rest := Loop(steps[1..], next, pos + 1, exec);
            Loop(steps, st, pos, exec) == RunResult(rest.state, rest.failure, [next.done] + rest.reports)
  {
  }

  /** `runStep` with the browser and AI outcomes of each position. */
  function Exec(effects: nat -> Outcome, env: Env): StepFn {
    (s: Step, st: State, p: nat) => ExecStep(s, st, effects(p), env)
  }

  lemma ExecLawful(effects: nat -> Outcome, env: Env)
    ensures Lawful(Exec(effects, env))
  {
    var exec := Exec(effects, env);
    forall s, st, p ensures exec(s, st, p) == ExecStep(s, st, effects(p), env) {
    }
  }

  /** `runScript` over `steps`, the first of them at position `pos`. */
  function Run(steps: seq<Step>, st: State, pos: nat, effects: nat -> Outcome, env: Env): (r: RunResult)
    ensures r.state.done == st.done + |r.reports|
    ensures forall i :: 0 <= i < |r.reports| ==> r.reports[i] == st.done + i + 1
    ensures |r.reports| <= CountKnown(steps)
    ensures r.failure.None? ==> |r.reports| == CountKnown(steps)
    ensures r.state.output.captures == st.output.captures
    ensures Extends(st.output.extractions, r.state.output.extractions)
    ensures Extends(st.output.evaluations, r.state.output.evaluations)
    ensures st.rules <= r.state.rules
  {
    ExecLawful(effects, env);
    Loop(steps, st, pos, Exec(effects, env))
  }

  /**
   * `runScript` stops at a step that throws, reporting that step's error and
   * the state it found; the job's fatal result is that error and that output.
   */
  lemma RunAborts(steps: seq<Step>, st: State, pos: nat, effects: nat -> Outcome, env: Env)
    requires |steps| > 0 && ExecStep(steps[0], st, effects(pos), env).Abort?
    ensures Run(steps, st, pos, effects, env)
            == RunResult(st, Some(ExecStep(steps[0], st, effects(pos), env).failure), [])
  {
    ExecLawful(effects, env);
    LoopAborts(steps, st, pos, Exec(effects, env));
  }

  /** A job either stops before its first step or runs its steps. */
  datatype Job = Rejected(failure: Failure) | Ran(total: nat, result: RunResult)

  /**
   * Compile the script, refuse an empty step list, then run every step from
   * the initial state. Progress reports never exceed the number of steps.
   * Responses are routed by `Executor.Deliver`, which this run does not
   * interleave, so it describes a job during which no response arrives and
   * its captures stay uncreated.
   */
  function RunJob(script: Script, json: string -> JsonParse, effects: nat -> Outcome, env: Env): (r: Job)
    ensures Compile(script, json).Err? ==> r == Rejected(Compile(script, json).error)
    ensures Compile(script, json) == Ok([]) ==> r == Rejected(NoSteps)
    ensures r.Rejected? ==> Compile(script, json).Err? || Compile(script, json) == Ok([])
    ensures r.Ran? ==>
      && Compile(script, json).Ok? && r.total == |Compile(script, json).value| >= 1
      && r.result.state.output.captures.None?
      && forall i :: 0 <= i < |r.result.reports| ==> 1 <= r.result.reports[i] <= r.total
  {
    match Compile(script, json)
    case Err(e) => Rejected(e)
    case Ok(steps) =>
      if |steps| == 0 then Rejected(NoSteps)
      else Ran(|steps|, Run(steps, Initial, 0, effects, env))
  }

  /**
   * Running two step lists one after the other is running their
   * concatenation: an error in the first ends the run, otherwise the second
   * continues from where the first stopped, at position `mid`, and the
   * reports concatenate.
   */
  ghost predicate AppendHolds(a: seq<Step>, b: seq<Step>, st: State, pos: nat, mid: nat, exec: StepFn)
    requires Lawful(exec)
  {
    var ra := Loop(a, st, pos, exec);
    Loop(a + b, st, pos, exec) ==
      if ra.failure.Some? then ra
      else
        var rb := Loop(b, ra.state, mid, exec);
        RunResult(rb.state, rb.failure, ra.reports + rb.reports)
  }

  /**
   * Steps run in list order: running `a + b` is running `a`, then, unless
   * `a` failed, running `b` from where `a` stopped. In particular an error
   * in `a` means no step of `b` runs.
   */
  lemma {:induction false} LoopAppend(a: seq<Step>, b: seq<Step>, st: State, pos: nat, mid: nat, exec: StepFn)
    requires Lawful(exec) && mid == pos + |a|
    ensures AppendHolds(a, b, st, pos, mid, exec)
    decreases |a|
  {
    if |a| == 0 {
      assert a + b == b;
      assert [] + Loop(b, st, pos, exec).reports == Loop(b, st, pos, exec).reports;
    } else {
      assert (a + b)[0] == a[0];
      assert (a + b)[1..] == a[1..] + b;
      match exec(a[0], st, pos)
      case Skip =>
        LoopAppend(a[1..], b, st, pos + 1, mid, exec);
      case Abort(_) =>
      case Advance(next) =>
        LoopAppend(a[1..], b, next, pos + 1, mid, exec);
        var rest := Loop(a[1..], next, pos + 1, exec);
        if rest.failure.None? {
          var rb := Loop(b, rest.state, mid, exec);
          assert [next.done] + (rest.reports + rb.reports) == ([next.done] + rest.reports) + rb.reports;
        }
    }
  }

  /** Steps without a handler are passed over: they neither fail nor count toward progress. */
  lemma {:induction false} LoopSkipsUnknown(steps: seq<Step>, st: State, pos: nat, exec: StepFn)
    requires Lawful(exec)
    requires forall i :: 0 <= i < |steps| ==> KindOfStep(steps[i]).None?
    ensures Loop(steps, st, pos, exec) == RunResult(st, None, [])
    decreases |steps|
  {
    if |steps| > 0 {
      assert KindOfStep(steps[0]).None?;
      LoopSkipsUnknown(steps[1..], st, pos + 1, exec);
    }
  }

  lemma UnknownStepsIgnored(steps: seq<Step>, st: State, pos: nat, effects: nat -> Outcome, env: Env)
    requires forall i :: 0 <= i < |steps| ==> KindOfStep(steps[i]).None?
    ensures Run(steps, st, pos, effects, env) == RunResult(st, None, [])
  {
    ExecLawful(effects, env);
    LoopSkipsUnknown(steps, st, pos, Exec(effects, env));
  }

  /**
   * The progress fraction reaches 1 exactly when the job ran to completion
   * and every step had a handler; a skipped step keeps the last report
   * below the number of steps.
   */
  lemma ProgressReachesEnd(script: Script, json: string -> JsonParse, effects: nat -> Outcome, env: Env)
    requires RunJob(script, json, effects, env).Ran?
    ensures var job := RunJob(script, json, effects, env);
      var steps := Compile(script, json).value;
      (job.result.failure.None? && job.result.reports != [] &&
       job.result.reports[|job.result.reports| - 1] == job.total)
      <==> (job.result.failure.None? && CountKnown(steps) == |steps|)
  {
  }
}

=== FILE: selectors.dfy ===
/**
 * Selector resolution: a raw DevTools selector string is classified into the
 * lookup strategy the page would use, and the `selectors` groups of a step are
 * turned into the ordered list of alternatives that the `.or()` chain combines.
 * Lookup against a live page is not modelled; only the classification is.
 */
module Selectors {
  import opened Wrappers
  import opened Text
  import opened Values
  import opened Steps
  import opened Errors

  /** A lookup strategy: by accessible label, by visible text, by XPath, or by CSS. */
  datatype Target =
    | Label(name: string)
    | TextMatch(text: string)
    | XPath(expr: string)
    | Css(selector: string)

  /** Drop one leading `pierce/`. */
  function StripPierce(s: string): string {
    if "pierce/" <= s then s[7..] else s
  }

  /** Number of leading `/` characters. */
  function SlashRun(s: string): (k: nat)
    ensures k <= |s|
    ensures forall i :: 0 <= i < k ==> s[i] == '/'
    ensures k == |s| || s[k] != '/'
  {
    if |s| > 0 && s[0] == '/' then 1 + SlashRun(s[1..]) else 0
  }

  /**
   * `s.replace(/>>>/g, ">>")`: non-overlapping matches, left to right. The text
   * shrinks exactly when it held a `>>>`.
   */
  function ReplaceDeep(s: string): (r: string)
    ensures |r| <= |s|
  {
    if |s| < 3 then s
    else if ">>>" <= s then ">>" + ReplaceDeep(s[3..])
    else [s[0]] + ReplaceDeep(s[1..])
  }

  /** The rewrite shrinks a text exactly when it holds a `>>>`, and leaves it alone otherwise. */
  lemma {:induction false} ReplaceDeepShrinks(s: string)
    ensures |ReplaceDeep(s)| < |s| <==> Contains(s, ">>>")
    ensures !Contains(s, ">>>") ==> ReplaceDeep(s) == s
    decreases |s|
  {
    if |s| < 3 {
      assert !(">>>" <= s);
      assert forall i :: !OccursAt(s, ">>>", i);
    } else if ">>>" <= s {
      assert OccursAt(s, ">>>", 0);
    } else {
      ReplaceDeepShrinks(s[1..]);
    }
  }

  /**
   * The first `>>>` is replaced and the scan resumes after it: when no `>>>`
   * starts inside `a`, the text of `a` is kept and the one after `a` becomes `>>`.
   */
  lemma {:induction false} ReplaceDeepFirst(a: string, b: string)
    requires !Contains(a + ">>", ">>>")
    ensures ReplaceDeep(a + ">>>" + b) == a + ">>" + ReplaceDeep(b)
    decreases |a|
  {
    if |a| == 0 {
      assert a + ">>>" + b == ">>>" + b;
      ReplaceDeepAt(b);
    } else {
      var t := a[1..] + ">>>" + b;
      var rb := ReplaceDeep(b);
      assert ReplaceDeep(a + ">>>" + b) == [a[0]] + ReplaceDeep(t) by {
        assert a + ">>>" + b == [a[0]] + t;
        assert !(">>>" <= [a[0]] + t) by {
          assert !OccursAt(a + ">>", ">>>", 0);
          assert (a + ">>")[..3] == ([a[0]] + t)[..3];
        }
        ReplaceDeepPast(a[0], t);
      }
      assert ReplaceDeep(t) == a[1..] + ">>" + rb by {
        assert !Contains(a[1..] + ">>", ">>>") by {
          assert (a + ">>")[1..] == a[1..] + ">>";
          ContainsTail(a + ">>", ">>>");
        }
        ReplaceDeepFirst(a[1..], b);
      }
      assert [a[0]] + (a[1..] + ">>" + rb) == a + ">>" + rb by {
        assert a == [a[0]] + a[1..];
      }
    }
  }

  /** An occurrence in the tail of a text is an occurrence in the text. */
  lemma ContainsTail(s: string, p: string)
    requires |s| > 0
    ensures Contains(s[1..], p) ==> Contains(s, p)
  {
    if Contains(s[1..], p) {
      var i :| OccursAt(s[1..], p, i);
      assert s[1..][i..i + |p|] == s[i + 1..i + 1 + |p|];
      assert OccursAt(s, p, i + 1);
    }
  }

  lemma ReplaceDeepAt(b: string)
    ensures ReplaceDeep(">>>" + b) == ">>" + ReplaceDeep(b)
  {
    var s := ">>>" + b;
    assert ">>>" <= s;
    assert s[3..] == b;
  }

  lemma ReplaceDeepPast(c: char, t: string)
    requires |t| >= 2 && !(">>>" <= [c] + t)
    ensures ReplaceDeep([c] + t) == [c] + ReplaceDeep(t)
  {
    var s := [c] + t;
    assert s[1..] == t;
  }

  /**
   * Classification of one raw selector, in the source's priority order.
   * Non-strings and "" give nothing; `aria/` and `text/` give nothing for an
   * empty or `*` remainder; every XPath result is root-relative.
   */
  function Classify(raw: Value): (r: Option<Target>)
    ensures !raw.Str? || raw.s == "" ==> r.None?
    ensures r.Some? && r.value.Label? ==>
      var n := r.value.name; n != "" && n != "*" && !IsSpace(n[0]) && !IsSpace(n[|n| - 1])
    ensures r.Some? && r.value.TextMatch? ==> r.value.text != "" && r.value.text != "*"
    ensures r.Some? && r.value.XPath? ==> "//" <= r.value.expr || "(//" <= r.value.expr
    ensures raw.Str? && raw.s != "" && r.None? ==>
      var s := StripPierce(raw.s); "aria/" <= s || "text/" <= s
  {
    match raw
    case Str(s0) =>
      if s0 == "" then None
      else
        var s := StripPierce(s0);
        if "aria/" <= s then
          var name := Trim(s[5..]);
          if name == "" || name == "*" then None else Some(Label(name))
        else if "text/" <= s then
          var t := s[5..];
          if t == "" || t == "*" then None else Some(TextMatch(t))
        else if "xpath/" <= s then
          Some(XPath("//" + s[5 + SlashRun(s[5..])..]))
        else if "//" <= s || "(//" <= s then Some(XPath(s))
        else if Contains(s, ">>>") then Some(Css(ReplaceDeep(s)))
        else Some(Css(s))
    case _ => None
  }

  /** An `aria/` selector names the trimmed label, unless that is empty or the wildcard. */
  lemma ClassifyAria(x: string)
    ensures Classify(Str("aria/" + x))
            == if Trim(x) == "" || Trim(x) == "*" then None else Some(Label(Trim(x)))
  {
    var s := "aria/" + x;
    assert !("pierce/" <= s) by { assert s[0] == 'a'; }
    assert "aria/" <= s;
    assert s[5..] == x;
  }

  /** A `text/` selector keeps its remainder untrimmed, unless it is empty or the wildcard. */
  lemma ClassifyText(x: string)
    ensures Classify(Str("text/" + x))
            == if x == "" || x == "*" then None else Some(TextMatch(x))
  {
    var s := "text/" + x;
    assert !("pierce/" <= s) by { assert s[0] == 't'; }
    assert !("aria/" <= s) by { assert s[0] == 't'; }
    assert "text/" <= s;
    assert s[5..] == x;
  }

  /** No prefix that classification tests for, other than the deep combinator. */
  predicate PlainCss(s: string) {
    && !("pierce/" <= s) && !("aria/" <= s) && !("text/" <= s) && !("xpath/" <= s)
    && !("//" <= s) && !("(//" <= s)
  }

  /** A selector with none of the recognised prefixes is CSS, deep combinators rewritten. */
  lemma ClassifyPlain(s: string)
    requires s != "" && PlainCss(s)
    ensures Classify(Str(s)) == Some(Css(ReplaceDeep(s)))
    ensures !Contains(s, ">>>") ==> Classify(Str(s)) == Some(Css(s))
  {
    ReplaceDeepShrinks(s);
  }

  /** A selector starting with `//` or `(//` is used as an XPath expression unchanged. */
  lemma ClassifyXPathLiteral(s: string)
    requires "//" <= s || "(//" <= s
    ensures Classify(Str(s)) == Some(XPath(s))
  {
    assert s[0] == '/' || s[0] == '(';
  }

  /** A label with no surrounding whitespace is used as written: `aria/Email` selects `Email`. */
  lemma AriaLabelKept(x: string)
    requires x != "" && x != "*" && !IsSpace(x[0]) && !IsSpace(x[|x| - 1])
    ensures Classify(Str("aria/" + x)) == Some(Label(x))
  {
    ClassifyAria(x);
    TrimUntouched(x);
  }


  // An `aria/` selector whose label is the wildcard `*` selects nothing.
  lemma AriaWildcardExample(star: string)
    requires star == "*"
    ensures Classify(Str("aria/" + star)) == None
  {
    ClassifyAria(star);
    assert !IsSpace('*');
    TrimUntouched(star);
  }

  // A `text/` selector whose remainder is the wildcard `*` selects nothing.
  lemma TextWildcardExample()
    ensures Classify(Str("text/*")) == None
  {
    var star := "*";
    assert "text/" + star == "text/*";
    ClassifyText(star);
  }

  // The recorder's `xpath///` form normalises to a root-relative `//` XPath.
  lemma XPathExample(e: string)
    requires e == "*[@id='x']"
    ensures Classify(Str("xpath///" + e)) == Some(XPath("//" + e))
  {
    XPathNormalised("///", e);
    assert "xpath" + "///" + e == "xpath///" + e;
  }

  /** The first deep combinator `>>>` of a CSS selector is rewritten to `>>`. */
  lemma DeepCombinatorRewritten(a: string, b: string)
    requires PlainCss(a + ">>>" + b) && !Contains(a + ">>", ">>>")
    ensures Classify(Str(a + ">>>" + b)) == Some(Css(a + ">>" + ReplaceDeep(b)))
  {
    var s := a + ">>>" + b;
    ClassifyPlain(s);
    ReplaceDeepFirst(a, b);
  }

  /** One leading `pierce/` is transparent to classification, but only one. */
  lemma PierceStripped(s: string)
    requires s != "" && !("pierce/" <= s)
    ensures Classify(Str("pierce/" + s)) == Classify(Str(s))
  {
    assert "pierce/" <= "pierce/" + s;
    assert ("pierce/" + s)[7..] == s;
  }

  /** A bare `pierce/` leaves the empty CSS selector. */
  lemma PierceAlone()
    ensures Classify(Str("pierce/")) == Some(Css(""))
  {
    var p := "pierce/";
    assert "pierce/" <= p && p[7..] == "";
    assert !Contains("", ">>>");
  }

  /** `xpath/` followed by any number of slashes collapses to one `//` root. */
  lemma XPathNormalised(slashes: string, e: string)
    requires |slashes| >= 1 && forall i :: 0 <= i < |slashes| ==> slashes[i] == '/'
    requires e == "" || e[0] != '/'
    ensures Classify(Str("xpath" + slashes + e)) == Some(XPath("//" + e))
  {
    var s := "xpath" + slashes + e;
    assert s[5..] == slashes + e;
    assert SlashRun(slashes + e) == |slashes| by {
      assert forall i :: 0 <= i < |slashes| ==> (slashes + e)[i] == '/';
      assert |slashes + e| == |slashes| || (slashes + e)[|slashes|] != '/';
    }
    assert s[5 + |slashes|..] == e;
    assert !("pierce/" <= s) by { assert s[0] == 'x'; }
    assert !("aria/" <= s) by { assert s[0] == 'x'; }
    assert !("text/" <= s) by { assert s[0] == 'x'; }
    assert "xpath/" <= s by { assert s[5] == '/'; }
  }

  /** The lookup one group contributes: its first candidate's classification, if it has one. */
  function Lead(group: Value): Option<Target> {
    if group.List? && |group.items| > 0 then Classify(group.items[0]) else None
  }

  /** The lookup of every group, in order. */
  function Leads(groups: seq<Value>): (r: seq<Option<Target>>)
    ensures |r| == |groups| && forall k :: 0 <= k < |groups| ==> r[k] == Lead(groups[k])
  {
    seq(|groups|, k requires 0 <= k < |groups| => Lead(groups[k]))
  }

  /** `t` is the lookup at `k`, and every earlier lookup is absent. */
  predicate FirstPresentAt(leads: seq<Option<Target>>, k: int, t: Target) {
    0 <= k < |leads| && leads[k] == Some(t) && forall j :: 0 <= j < k ==> leads[j].None?
  }

  /**
   * The present lookups, in order. They are empty exactly when none is
   * present, and otherwise start with the first present one.
   */
  function Present(leads: seq<Option<Target>>): (r: seq<Target>)
    ensures |r| <= |leads|
    ensures |r| == 0 <==> forall k :: 0 <= k < |leads| ==> leads[k].None?
    ensures |r| > 0 ==> exists k :: FirstPresentAt(leads, k, r[0])
    ensures forall t :: t in r ==> Some(t) in leads
  {
    if |leads| == 0 then []
    else
      var rest := Present(leads[1..]);
      assert forall k :: 1 <= k < |leads| ==> leads[1..][k - 1] == leads[k];
      match leads[0]
      case Some(t) =>
        var r := [t] + rest;
        assert FirstPresentAt(leads, 0, r[0]);
        r
      case None =>
        if |rest| > 0 then
          var k :| FirstPresentAt(leads[1..], k, rest[0]);
          FirstPresentShift(leads, k, rest[0]);
          rest
        else rest
  }

  /** An absent first lookup moves the first present one by one place. */
  lemma FirstPresentShift(leads: seq<Option<Target>>, k: int, t: Target)
    requires |leads| > 0 && leads[0].None? && FirstPresentAt(leads[1..], k, t)
    ensures FirstPresentAt(leads, k + 1, t)
  {
    assert forall j :: 1 <= j <= k ==> leads[j] == leads[1..][j - 1];
  }

  /** Keeping the present lookups distributes over concatenation, preserving order. */
  lemma {:induction false} PresentAppend(a: seq<Option<Target>>, b: seq<Option<Target>>)
    ensures Present(a + b) == Present(a) + Present(b)
    decreases |a|
  {
    if |a| == 0 {
      assert a + b == b;
    } else {
      assert (a + b)[0] == a[0];
      assert (a + b)[1..] == a[1..] + b;
      PresentAppend(a[1..], b);
    }
  }

  /** The alternatives of a `selectors` list: every group's lookup that exists, in group order. */
  function Alternatives(groups: seq<Value>): seq<Target> {
    Present(Leads(groups))
  }

  /** Building alternatives distributes over concatenation of the groups. */
  lemma AlternativesAppend(a: seq<Value>, b: seq<Value>)
    ensures Alternatives(a + b) == Alternatives(a) + Alternatives(b)
  {
    assert forall k :: 0 <= k < |a + b| ==> (a + b)[k] == if k < |a| then a[k] else b[k - |a|];
    assert Leads(a + b) == Leads(a) + Leads(b);
    PresentAppend(Leads(a), Leads(b));
  }

  /** Candidates after the first in a group are never consulted. */
  lemma FirstCandidateOnly(before: seq<Value>, x: Value, more: seq<Value>, after: seq<Value>)
    ensures Alternatives(before + [List([x] + more)] + after)
            == Alternatives(before + [List([x])] + after)
  {
    AlternativesAppend(before + [List([x] + more)], after);
    AlternativesAppend(before, [List([x] + more)]);
    AlternativesAppend(before + [List([x])], after);
    AlternativesAppend(before, [List([x])]);
    assert Leads([List([x] + more)]) == Leads([List([x])]);
  }

  /**
   * `buildLocatorFromStep`: fails when `selectors` is not a list or when no
   * group contributes a lookup; otherwise the ordered, non-empty alternatives.
   */
  function BuildTarget(step: Step): (r: Result<seq<Target>, Failure>)
    ensures !Field(step, "selectors").List? ==> r == Err(NoSelectors(TypeName(step)))
    ensures Field(step, "selectors").List? ==>
      var groups := Field(step, "selectors").items;
      && (r.Err? <==> forall k :: 0 <= k < |groups| ==> Lead(groups[k]).None?)
      && (r.Err? ==> r == Err(NoTarget(TypeName(step))))
      && (r.Ok? ==> r.value == Alternatives(groups) && |r.value| >= 1)
  {
    var sel := Field(step, "selectors");
    if !sel.List? then Err(NoSelectors(TypeName(step)))
    else
      var alts := Alternatives(sel.items);
      if |alts| == 0 then Err(NoTarget(TypeName(step))) else Ok(alts)
  }
}

=== FILE: steps.dfy ===
/**
 * Steps as the executor sees them: a bag of named fields, and the fifteen
 * step kinds that have a handler.
 */
module Steps {
  import opened Wrappers
  import opened Values

  /** One compiled step: the fields of the source's step object. */
  datatype Step = Step(fields: map<string, Value>)

  /** Reading a field that is absent yields `undefined`. */
  function Field(step: Step, name: string): Value {
    if name in step.fields then step.fields[name] else Undefined
  }

  /** The step kinds that have a `runStep_<kind>` handler. */
  datatype Kind =
    | Navigate | Reload | Capture | Action | Extract | SetViewport
    | Click | DoubleClick | Change | KeyDown | KeyUp | TypeText
    | Evaluate | Sleep | WaitFor

  /** The `type` string that names each kind. */
  function KindName(k: Kind): string {
    match k
    case Navigate => "navigate"
    case Reload => "reload"
    case Capture => "capture"
    case Action => "action"
    case Extract => "extract"
    case SetViewport => "setViewport"
    case Click => "click"
    case DoubleClick => "doubleClick"
    case Change => "change"
    case KeyDown => "keyDown"
    case KeyUp => "keyUp"
    case TypeText => "text"
    case Evaluate => "evaluate"
    case Sleep => "sleep"
    case WaitFor => "waitFor"
  }

  /** Handler lookup by name; names without a handler give None. */
  function KindOf(name: string): (r: Option<Kind>)
    ensures r.Some? ==> KindName(r.value) == name
  {
    if name == "navigate" then Some(Navigate)
    else if name == "reload" then Some(Reload)
    else if name == "capture" then Some(Capture)
    else if name == "action" then Some(Action)
    else if name == "extract" then Some(Extract)
    else if name == "setViewport" then Some(SetViewport)
    else if name == "click" then Some(Click)
    else if name == "doubleClick" then Some(DoubleClick)
    else if name == "change" then Some(Change)
    else if name == "keyDown" then Some(KeyDown)
    else if name == "keyUp" then Some(KeyUp)
    else if name == "text" then Some(TypeText)
    else if name == "evaluate" then Some(Evaluate)
    else if name == "sleep" then Some(Sleep)
    else if name == "waitFor" then Some(WaitFor)
    else None
  }

  /** Every kind is found again from its name, so lookup and naming are inverse. */
  lemma KindNameRoundTrip(k: Kind)
    ensures KindOf(KindName(k)) == Some(k)
  {
  }

  /** `'runStep_' + step.type`: the type is coerced to a string before lookup. */
  function TypeName(step: Step): string {
    ToText(Field(step, "type"))
  }

  /** The handler a step dispatches to, if any. */
  function KindOfStep(step: Step): Option<Kind> {
    KindOf(TypeName(step))
  }

  /** The kinds whose handler resolves a target from `selectors`. */
  predicate Targeted(k: Kind) {
    k == Click || k == DoubleClick || k == Change || k == WaitFor
  }
}

=== FILE: text.dfy ===
/**
 * Character classes and string helpers with the meaning JavaScript regular
 * expressions give them when no `u` flag is used: `\w` is ASCII, `\s` and
 * `String.prototype.trim` share one whitespace set, and case-insensitive
 * matching folds ASCII letters only.
 */
module Text {

  /** WhiteSpace and LineTerminator code points, the set `\s` and `trim` use. */
  predicate IsSpace(c: char) {
    || c == ' '
    || ('\t' <= c <= '\r')
    || c == '\U{A0}'
    || c == '\U{1680}'
    || ('\U{2000}' <= c <= '\U{200A}')
    || c == '\U{2028}'
    || c == '\U{2029}'
    || c == '\U{202F}'
    || c == '\U{205F}'
    || c == '\U{3000}'
    || c == '\U{FEFF}'
  }

  /** The characters `.` refuses to match. */
  predicate IsLineTerminator(c: char) {
    c == '\n' || c == '\r' || c == '\U{2028}' || c == '\U{2029}'
  }

  /** `\w` without the `u` flag: `[A-Za-z0-9_]`. */
  predicate IsWordChar(c: char) {
    ('a' <= c <= 'z') || ('A' <= c <= 'Z') || ('0' <= c <= '9') || c == '_'
  }

  /** `\d`: ASCII digits. */
  predicate IsDigit(c: char) {
    '0' <= c <= '9'
  }

  /** ASCII lower-casing, the folding a case-insensitive non-unicode regex applies. */
  function Lower(c: char): (r: char)
    ensures IsWordChar(c) <==> IsWordChar(r)
    ensures !('A' <= r <= 'Z')
  {
    if 'A' <= c <= 'Z' then (c as int + 32) as char else c
  }

  function LowerAll(s: string): (r: string)
    ensures |r| == |s|
    ensures forall i :: 0 <= i < |s| ==> r[i] == Lower(s[i])
  {
    if |s| == 0 then [] else [Lower(s[0])] + LowerAll(s[1..])
  }

  predicate AllNonSpace(s: string) {
    forall i :: 0 <= i < |s| ==> !IsSpace(s[i])
  }

  predicate AllDigits(s: string) {
    forall i :: 0 <= i < |s| ==> IsDigit(s[i])
  }

  predicate AllWord(s: string) {
    forall i :: 0 <= i < |s| ==> IsWordChar(s[i])
  }

  /** Case-insensitive prefix test, as `/^p/i`. */
  predicate StartsWithCI(s: string, p: string) {
    |p| <= |s| && forall i :: 0 <= i < |p| ==> Lower(s[i]) == Lower(p[i])
  }

  /** `p` occurs in `s` starting at index `i`. */
  predicate OccursAt(s: string, p: string, i: int) {
    0 <= i && i + |p| <= |s| && s[i..i + |p|] == p
  }

  /** `String.prototype.includes`. */
  function Contains(s: string, p: string): (b: bool)
    ensures b <==> exists i :: OccursAt(s, p, i)
  {
    if p <= s then
      assert OccursAt(s, p, 0);
      true
    else if |s| == 0 then
      false
    else
      var b := Contains(s[1..], p);
      forall i | OccursAt(s[1..], p, i) ensures OccursAt(s, p, i + 1) {
        assert s[1..][i..i + |p|] == s[i + 1..i + 1 + |p|];
      }
      forall i | OccursAt(s, p, i) ensures i >= 1 && OccursAt(s[1..], p, i - 1) {
        assert s[1..][i - 1..i - 1 + |p|] == s[i..i + |p|];
      }
      b
  }

  /** Length of the leading run of whitespace. */
  function SpaceRun(s: string): (k: nat)
    ensures k <= |s|
    ensures forall i :: 0 <= i < k ==> IsSpace(s[i])
    ensures k == |s| || !IsSpace(s[k])
  {
    if |s| > 0 && IsSpace(s[0]) then 1 + SpaceRun(s[1..]) else 0
  }

  /** Length of the leading run of word characters. */
  function WordRun(s: string): (k: nat)
    ensures k <= |s|
    ensures forall i :: 0 <= i < k ==> IsWordChar(s[i])
    ensures k == |s| || !IsWordChar(s[k])
  {
    if |s| > 0 && IsWordChar(s[0]) then 1 + WordRun(s[1..]) else 0
  }

  /** Concatenation regroups freely. */
  lemma Assoc(a: string, b: string, c: string)
    ensures a + b + c == a + (b + c)
  {
  }

  /** The leading word run is all word characters and is not followed by one. */
  lemma WordRunSplit(s: string)
    ensures AllWord(s[..WordRun(s)])
    ensures s[WordRun(s)..] == "" || !IsWordChar(s[WordRun(s)..][0])
  {
    var k := WordRun(s);
    assert forall i :: 0 <= i < k ==> s[..k][i] == s[i];
  }

  /** Length of the trailing run of word characters. */
  function TrailingWordRun(s: string): (k: nat)
    ensures k <= |s|
    ensures forall i :: |s| - k <= i < |s| ==> IsWordChar(s[i])
    ensures k == |s| || !IsWordChar(s[|s| - k - 1])
  {
    if |s| > 0 && IsWordChar(s[|s| - 1]) then 1 + TrailingWordRun(s[..|s| - 1]) else 0
  }

  function TrimLeft(s: string): (r: string)
    ensures |r| <= |s| && r == s[|s| - |r|..]
    ensures r == [] || !IsSpace(r[0])
    ensures forall i :: 0 <= i < |s| - |r| ==> IsSpace(s[i])
  {
    if |s| > 0 && IsSpace(s[0]) then TrimLeft(s[1..]) else s
  }

  function TrimRight(s: string): (r: string)
    ensures |r| <= |s| && r == s[..|r|]
    ensures r == [] || !IsSpace(r[|r| - 1])
    ensures forall i :: |r| <= i < |s| ==> IsSpace(s[i])
  {
    if |s| > 0 && IsSpace(s[|s| - 1]) then TrimRight(s[..|s| - 1]) else s
  }

  /** `String.prototype.trim`: the slice left after dropping whitespace at both ends. */
  function Trim(s: string): (r: string)
    ensures |r| <= |s|
    ensures r == [] || (!IsSpace(r[0]) && !IsSpace(r[|r| - 1]))
    ensures exists i :: TrimmedAt(s, i, r)
  {
    var t := TrimRight(s);
    var r := TrimLeft(t);
    assert TrimmedAt(s, |t| - |r|, r) by {
      TrimBothEnds(s, t, r);
    }
    r
  }

  /** Dropping a whitespace suffix and then a whitespace prefix leaves a slice with whitespace around it. */
  lemma TrimBothEnds(s: string, t: string, r: string)
    requires |t| <= |s| && t == s[..|t|] && forall k :: |t| <= k < |s| ==> IsSpace(s[k])
    requires |r| <= |t| && r == t[|t| - |r|..] && forall k :: 0 <= k < |t| - |r| ==> IsSpace(t[k])
    ensures TrimmedAt(s, |t| - |r|, r)
  {
    var j := |t| - |r|;
    assert r == s[j..j + |r|] by {
      assert s[..|t|] == t;
      assert s[j..j + |r|] == t[j..];
    }
    assert forall k :: 0 <= k < j ==> IsSpace(s[k]) by {
      assert forall k :: 0 <= k < |t| ==> s[k] == t[k];
    }
  }

  /** `r` is the slice of `s` starting at `i`, and everything around it is whitespace. */
  predicate TrimmedAt(s: string, i: int, r: string) {
    && 0 <= i && i + |r| <= |s| && r == s[i..i + |r|]
    && (forall k :: 0 <= k < i ==> IsSpace(s[k]))
    && (forall k :: i + |r| <= k < |s| ==> IsSpace(s[k]))
  }

  /** Index of the first occurrence of `c`. */
  function FirstIndex(s: string, c: char): (i: nat)
    requires c in s
    ensures i < |s| && s[i] == c && c !in s[..i]
  {
    if s[0] == c then 0 else 1 + FirstIndex(s[1..], c)
  }

  /** Index of the last occurrence of `c`. */
  function LastIndex(s: string, c: char): (i: nat)
    requires c in s
    ensures i < |s| && s[i] == c && c !in s[i + 1..]
  {
    if s[|s| - 1] == c then |s| - 1
    else
      assert c in s[..|s| - 1] by {
        var k :| 0 <= k < |s| && s[k] == c;
        assert s[..|s| - 1][k] == c;
      }
      LastIndex(s[..|s| - 1], c)
  }

  /** Lines joined with `\n`: the inverse of `Lines`. */
  function JoinLines(ls: seq<string>): string {
    if |ls| == 0 then ""
    else if |ls| == 1 then ls[0]
    else ls[0] + "\n" + JoinLines(ls[1..])
  }

  /** A text with no whitespace at either end is its own trim. */
  lemma TrimUntouched(x: string)
    requires x != "" && !IsSpace(x[0]) && !IsSpace(x[|x| - 1])
    ensures Trim(x) == x
  {
    assert TrimRight(x) == x;
    assert TrimLeft(x) == x;
  }

  /** `s.split(/\n/)`: the pieces between newlines, never empty. */
  function Lines(s: string): (r: seq<string>)
    ensures |r| >= 1
    ensures JoinLines(r) == s
    ensures forall k :: 0 <= k < |r| ==> '\n' !in r[k]
    decreases |s|
  {
    if '\n' !in s then [s]
    else
      var i := FirstIndex(s, '\n');
      var rest := Lines(s[i + 1..]);
      assert s == s[..i] + "\n" + s[i + 1..];
      [s[..i]] + rest
  }
}

=== FILE: values.dfy ===
/**
 * The JavaScript values a step field can hold, with the two coercions the
 * executor relies on: truthiness (`if (!x)`) and string conversion
 * (`'' + x`, `x.toString()`). Numbers are restricted to integers and NaN.
 */
module Values {
  import opened Text

  datatype Value =
    | Undefined
    | Null
    | Bool(b: bool)
    | Num(n: int)
    | NaN
    | Str(s: string)
    | List(items: seq<Value>)
    | Object   // any other object; only its truthiness is observed

  /** JavaScript truthiness. */
  predicate Truthy(v: Value) {
    match v
    case Undefined => false
    case Null => false
    case Bool(b) => b
    case Num(n) => n != 0
    case NaN => false
    case Str(s) => s != ""
    case List(_) => true
    case Object => true
  }

  function Digit(d: nat): (c: char)
    requires d < 10
    ensures IsDigit(c)
  {
    "0123456789"[d]
  }

  /** Decimal notation of a natural number. */
  function NatText(n: nat): (r: string)
    ensures |r| >= 1 && AllDigits(r)
    ensures n < 10 <==> |r| == 1
  {
    if n < 10 then [Digit(n)] else NatText(n / 10) + [Digit(n % 10)]
  }

  /** `Array.prototype.join` with the default `,` separator. */
  function JoinComma(parts: seq<string>): string {
    if |parts| == 0 then ""
    else if |parts| == 1 then parts[0]
    else parts[0] + "," + JoinComma(parts[1..])
  }

  /** String conversion; list elements that are null or undefined become "". */
  function ToText(v: Value): string
    decreases v
  {
    match v
    case Undefined => "undefined"
    case Null => "null"
    case Bool(b) => if b then "true" else "false"
    case Num(n) => if n < 0 then "-" + NatText(-n) else NatText(n)
    case NaN => "NaN"
    case Str(s) => s
    case List(items) =>
      JoinComma(seq(|items|, i requires 0 <= i < |items| =>
        if items[i].Undefined? || items[i].Null? then "" else ToText(items[i])))
    case Object => "[object Object]"
  }

  /** A string converts to itself, and nothing but the empty string and lists convert to "". */
  lemma ToTextEmpty(v: Value)
    ensures ToText(v) == "" ==> v == Str("") || v.List?
    ensures v.Str? ==> ToText(v) == v.s
  {
  }
}

=== FILE: wrappers.dfy ===
/** Failure-compatible wrappers used throughout the model. */
module Wrappers {

  datatype Option<+T> = None | Some(value: T) {

    /** The wrapped value, or `default` when there is none. */
    function GetOr(default: T): T {
      match this
      case Some(v) => v
      case None => default
    }
  }

  /** The outcome of an operation that may throw: a value or the error it threw. */
  datatype Result<+T, +E> = Ok(value: T) | Err(error: E) {

    predicate IsFailure() {
      Err?
    }

    function PropagateFailure<U>(): Result<U, E>
      requires Err?
    {
      Err(error)
    }

    function Extract(): T
      requires Ok?
    {
      value
    }
  }
}
